=== FILE: README.md ===
# BME280 and MPU-6500 sensor drivers, modelled in Dafny

The system is an ESP32 environment logger. Two sensors sit on one I²C bus:

- a Bosch BME280, which measures temperature, pressure and relative humidity;
- an InvenSense MPU-6500, which measures acceleration and rotation rate.

This project models three parts of the firmware and proves properties about them:

- **I²C byte assembly.** The read loops collect the bytes a device answers with. Those bytes are then assembled into big-endian words, little-endian words and 24-bit values.
- **BME280 driver.** It loads the 18 calibration coefficients from the sensor's registers. The signed 12-bit H4 and H5 share one register. It then applies the fixed-point compensation that turns raw readings into °C, Pa and %RH. It signals "no reading" when a measurement was skipped or a divisor is zero.
- **MPU-6500 driver.** At start-up it writes a sequence of configuration registers. It then self-calibrates: it averages 100 samples taken at rest into per-axis offsets. After that it reports compensated, scaled readings in g and °/s.

The modules:

- `FixedWidth` writes out the C++ integer behaviour the code depends on, over unbounded integers:
  - the `<stdint.h>` ranges;
  - `/`, which truncates toward zero;
  - `>>` on signed values, which rounds down;
  - `<<`;
  - `(int8_t)` and `(int16_t)` reinterpretation.
- `I2cUtils` holds the read routines as loops over an array buffer. Each routine is proved to return the value its assembly expression computes from the received bytes.
- `Bmx280` holds two kinds of members:
  - coefficient loading, as methods of the `BMx280` class that update `compVals`;
  - the compensation, as functions of the coefficients and the raw readings. A NaN result is `None`.
- `Bme280Datasheet` is the compensation the way the BME280 datasheet's reference code writes it, with every scaling an arithmetic shift. The driver's temperature and humidity chains use C++ division instead. The module proves how far the two can differ, where they agree, and inputs on which they differ.
- `MpuX` holds the `MPUx` class:
  - the bring-up writes;
  - the calibration loop, proved against the sums it accumulates;
  - the compensated readings.

  Lemmas about calibration show what it achieves. With a sensor at rest, the offsets are zero. Compensated with their own offsets, the calibration samples average to 0 °/s and to (0, 0, 1 g).

The BME280 datasheet describes the compensation as chains of shifts. The driver divides instead in two places:

- in the temperature code: `adcT / 8`, `/ 2048`, `/ 16`, `/ 4096`, `/ 16384`, and the final `/ 256` of getTemperature;
- in every scaling of the humidity code: `/ 32768`, `/ 1024`, `/ 2048`, `/ 16384`, `/ 128`, `/ 16` and the final `/ 4096`.

The pressure code uses the datasheet's own shifts and division. C++ division rounds negative quotients toward zero, where a shift rounds them down. The model follows the driver's code. `Bme280Datasheet` states the divergence:

- for all inputs, the driver's tFine is 0 to 2 above the datasheet's, and its temperature 0 to 2 hundredths of a degree above;
- tFine and temperature are equal when the divided products are non-negative;
- a concrete calibration shows the two tFine values differing;
- on the worked example, tFine differs by one, which moves the pressure by 7/256 Pa;
- the humidity values are equal where every intermediate is non-negative, which needs tFine ≥ 76800 (about 15 °C);
- below that, a concrete input shows the humidity values differing.

## Model

| member | source | states |
|---|---|---|
| FixedWidth.TruncDiv | bmx_280.cpp:91-94 | C++ `/`: the quotient's magnitude is the floor of the magnitudes, and its sign is that of a·b |
| FixedWidth.TruncDivBounds | bmx_280.cpp:104 | dividing by a positive divisor leaves a remainder smaller than the divisor, with the dividend's sign |
| FixedWidth.TruncDivVersusShr | bmx_280.cpp:91-94 | `/ 2^k` equals `>> k` on non-negative dividends and exact multiples; otherwise it is exactly one above |
| FixedWidth.Shr | bmx_280.cpp:88 | `x >> k` on a signed value is the unique r with r·2^k ≤ x < (r+1)·2^k |
| FixedWidth.Shl | bmx_280.cpp:122-123 | `x << k` without overflow has its low k bits zero and is undone by `>> k`, which together pin it to x·2^k |
| FixedWidth.AsInt8Congruent | bmx_280.cpp:80 | `(int8_t)b` is the int8 value congruent to b mod 2^8, and it is negative iff bit 7 is set |
| FixedWidth.AsInt16Congruent | bmx_280.cpp:56 | `(int16_t)w` is the int16 value congruent to w mod 2^16, and it is negative iff bit 15 is set |
| FixedWidth.SignExtendKeepsValue | bmx_280.cpp:76 | promoting an int8_t keeps its signed value |
| I2cUtils.WordBEValue | i2c_utils.cpp:41 | the first byte is the high byte: hi·256 + lo |
| I2cUtils.WordLEValue | i2c_utils.cpp:61-63 | swapping the bytes of the big-endian word gives the little-endian word b1·256 + b0 |
| I2cUtils.Swap16Involutive | i2c_utils.cpp:63 | swapping the two bytes twice gives the word back |
| I2cUtils.ThreeBytesValue | i2c_utils.cpp:81 | the 24-bit value is b0·65536 + b1·256 + b2, below 2^24, so it is never negative as an int32_t |
| I2cUtils.HumiditySentinelBytes | bmx_280.cpp:146-148 | the humidity "skipped" word 0x8000 comes from exactly the byte pair (0x80, 0x00) |
| I2cUtils.ReadByteFromRegister | i2c_utils.cpp:11-24 | the result is the last byte received, or 0 when no byte arrives |
| I2cUtils.ReadWordFromRegister | i2c_utils.cpp:26-44 | after the buffering loop, the result is the big-endian word of the two received bytes |
| I2cUtils.ReadWordFromRegisterLE | i2c_utils.cpp:46-64 | the result is the byte-swapped big-endian word, which is the little-endian word of the received bytes |
| I2cUtils.ReadThreeBytesFromRegister | i2c_utils.cpp:66-84 | after the buffering loop, the result is the three received bytes, most significant first |
| Bmx280.TPRegistersConsecutive | bmx_280.h:23-42 | T1..P9 occupy twelve consecutive two-byte slots from 0x88, and H5's register follows H4's |
| Bmx280.Packed12Value | bmx_280.cpp:76-79 | the packed coefficient is signed byte·16 + nibble, within the 12-bit range [-2048, 2047] |
| Bmx280.Packed12Examples | bmx_280.cpp:76-77 | register bytes 0x12/0x34 decode to H4 = 292, and 0xF2/0x34 decode to H4 = -220 |
| Bmx280.TemperatureLayout | bmx_280.cpp:54-58 | T1 is the unsigned little-endian word at 0x88; T2 and T3 are congruent mod 2^16 to the words at 0x8A and 0x8C |
| Bmx280.PressureLayout | bmx_280.cpp:60-70 | P1 is the unsigned little-endian word at 0x8E; P2..P9 are congruent mod 2^16 to the words at 0x90..0x9E |
| Bmx280.HumidityLayout | bmx_280.cpp:72-80 | H1 and H3 are the bytes at 0xA1 and 0xE3; H2 is congruent to the word at 0xE1; H6 is congruent to the byte at 0xE7 |
| Bmx280.SharedNibbleLayout | bmx_280.cpp:76-79 | H4 is signed(0xE4)·16 + low nibble of 0xE5; H5 is signed(0xE6)·16 + high nibble of 0xE5; both are 12-bit |
| Bmx280.DecodedH4Fits | bmx_280.cpp:154 | for every register content, `H4 * 1048576` fits int32_t |
| Bmx280.TFine | bmx_280.cpp:83-97 | the skip value 0x800000 gives 0, and every tFine lies within ±0x120000 |
| Bmx280.GetTemperature | bmx_280.cpp:99-106 | NaN exactly when tFine is 0; otherwise (5·tFine + 128)/256 truncated toward zero (rounded down for a non-negative dividend, up for a negative one), within ±230.40 °C |
| Bmx280.PressureOffsetFits | bmx_280.cpp:120-123 | with tFine in range, every step of the pressure offset var2 stays below 2^58 in magnitude, for every coefficient set |
| Bmx280.PressureScaledFits | bmx_280.cpp:124 | with tFine in range, both terms of the scale var1 stay below 2^50 in magnitude, for every coefficient set |
| Bmx280.EarlyPressureStepsFit | bmx_280.cpp:119-124 | for any coefficients and any tFine in range, the int64 steps before the product with P1 do not overflow |
| Bmx280.PressureNumeratorFits | bmx_280.cpp:131-132 | for every reading and every coefficient set, `P << 31` is at most 2^51 and the numerator `(P << 31) - var2` stays below 2^59, so both fit int64_t |
| Bmx280.PressureBaseRange | bmx_280.cpp:117-131 | after `adcP >>= 4`, the base `1048576 - adcP` is in [1, 2^20] |
| Bmx280.GetPressure | bmx_280.cpp:108-139 | NaN exactly when tFine is 0, adcP is the skip value, or the divisor var1 is 0; otherwise the result fits int64, and the steps before the product with P1 never overflow (its value on the worked example is `WorkedExamplePressure`) |
| Bmx280.HumidityFixedStepsFit | bmx_280.cpp:152-158 | four steps always fit int32_t: `adcH * 16384`, `tFine - 76800`, and that difference times H6 and times H3; the product at bmx_280.cpp:159 can overflow and is left to `HumidityDefined` |
| Bmx280.HumidityValue | bmx_280.cpp:164-166 | the result is in [0, 102400]: 0 for a non-positive value, 102400 from the ceiling up, and the quotient by 4096 in between |
| Bmx280.GetHumidity | bmx_280.cpp:141-168 | NaN exactly when tFine is 0 or adcH is 0x8000; otherwise the value is in [0, 102400] (0..100 %RH in Q22.10), 0 below the range, 102400 above it, and the quotient by 4096 inside it |
| Bmx280.ReadTemperature | bmx_280.h:93 | °C is the centi-degree value / 100, within ±230.4 |
| Bmx280.ReadPressure | bmx_280.h:94 | hPa is the Q24.8 pascal value / 256 / 100, unavailable exactly when getPressure is |
| Bmx280.ReadHumidity | bmx_280.h:95 | %RH is the Q22.10 value / 1024, always within [0, 100] |
| Bmx280.SkippedTemperatureDisablesAll | bmx_280.cpp:83-87 | a skipped temperature measurement makes all three readings unavailable |
| Bmx280.ZeroTFineDisablesAll | bmx_280.cpp:99-145 | whenever tFine is 0, all three getters report failure |
| Bmx280.ValidReadingCanLookLikeFailure | bmx_280.cpp:83-103 | with the typical calibration, a real reading (0x6B7000) that is not the skip value yields tFine 0, so all three getters fail |
| Bmx280.ReferenceReadingTFine | bmx_280.cpp:83-97 | with the typical calibration, the reading 0x6B7000 makes both terms of getTFine vanish |
| Bmx280.WorkedExampleTemperature | bmx_280.cpp:83-106 | with the typical calibration (T1..P9 from the BMP280 worked example), raw temperature 0x7EED00 gives tFine 128423 and 25.08 °C |
| Bmx280.WorkedExamplePressureTerms | bmx_280.cpp:119-125 | at tFine 128423, var2 is 98104813871977, var1 is -18510802882, and the divisor is 597560562; the product with P1 fits int64_t |
| Bmx280.WorkedExamplePressure | bmx_280.cpp:108-139 | raw readings 0x7EED00 and 0x655AC0 give 25767240/256 Pa (100653.28 Pa), with every step within int64_t |
| Bmx280.SkippedPressureKeepsTemperature | bmx_280.cpp:113-116 | a skipped pressure reading fails the pressure only, and temperature stays available |
| Bmx280.SkippedHumidityKeepsTemperature | bmx_280.cpp:146-150 | a skipped humidity reading fails the humidity only, and temperature stays available |
| Bmx280.BMx280.constructor | bmx_280.h:82 | stores the bus address |
| Bmx280.BMx280.PopulateTemperatureCompensationValues | bmx_280.cpp:54-58 | loads T1..T3 as the registers encode them; the other coefficients are unchanged |
| Bmx280.BMx280.PopulatePressureCompensationValues | bmx_280.cpp:60-70 | loads P1..P9 as the registers encode them; the other coefficients are unchanged |
| Bmx280.BMx280.PopulateHumidityCompensationValues | bmx_280.cpp:72-81 | loads H1..H6 as the registers encode them, including the shared-nibble H4 and H5; the other coefficients are unchanged |
| Bmx280.BMx280.SetCompensationValues | bmx_280.cpp:48-52 | after the three populate steps, every coefficient is decoded from the registers |
| Bmx280.BMx280.Init | bmx_280.cpp:5-46 | writes soft reset, humidity x16, config 0x00 and control 0xB7, in that order; loads the coefficients; succeeds iff a byte came back and it is 0x60 |
| Bme280Datasheet.Var1NearDatasheet | bmx_280.cpp:91-92 | the driver's linear term is the datasheet's or one above it, and equal when the product is non-negative |
| Bme280Datasheet.Var2NearDatasheet | bmx_280.cpp:93-94 | the driver's quadratic term is the datasheet's or one above it, and equal when T3 ≥ 0 |
| Bme280Datasheet.DriverTFineNearDatasheet | bmx_280.cpp:83-97 | for every input, the driver's tFine is 0 to 2 above the datasheet's |
| Bme280Datasheet.DriverMatchesDatasheet | bmx_280.cpp:83-106 | with a non-negative T2 product and T3 ≥ 0, tFine and the temperature equal the datasheet's |
| Bme280Datasheet.DriverTemperatureNearDatasheet | bmx_280.cpp:99-106 | for every input, the driver's temperature is the datasheet's or up to 2 hundredths of a degree above it |
| Bme280Datasheet.DriverDiffersFromDatasheet | bmx_280.cpp:91-96 | for calibration T1=1, T2=3000, T3=0 and adcT=128, the driver gives tFine -1 and the datasheet gives -2 |
| Bme280Datasheet.WorkedExampleDatasheetTemperature | bmx_280.cpp:83-106 | by the datasheet's shifts, the worked example gives tFine 128422, one below the driver's, and the same 25.08 °C |
| Bme280Datasheet.WorkedExampleDatasheetChain | bmx_280.cpp:119-136 | the pressure chain at the datasheet's tFine 128422 gives 25767233 |
| Bme280Datasheet.WorkedExampleDatasheet | bmx_280.cpp:108-139 | on the worked example, the driver's pressure is the datasheet's 25767233/256 Pa plus 7/256 Pa, the effect of the one-unit tFine drift |
| Bme280Datasheet.HumidityBaseMatches | bmx_280.cpp:152-156 | with a non-negative numerator, the driver's offset-removed reading equals the datasheet's and is non-negative |
| Bme280Datasheet.HumidityGainMatches | bmx_280.cpp:157-160 | at tFine ≥ 76800, with H6 ≥ 0 and H2 ≥ 0, the driver's gain equals the datasheet's and is non-negative |
| Bme280Datasheet.HumidityCorrectionMatches | bmx_280.cpp:161-163 | for a non-negative product, the driver's quadratic correction equals the datasheet's |
| Bme280Datasheet.HumidityUnclampedMatches | bmx_280.cpp:152-163 | where every intermediate is non-negative, the driver's unclamped humidity equals the datasheet's |
| Bme280Datasheet.HumidityMatchesDatasheet | bmx_280.cpp:141-168 | under the same conditions, getHumidity reports exactly the datasheet's humidity for the same tFine |
| Bme280Datasheet.HumidityDriverExample | bmx_280.cpp:152-163 | at tFine 20000 and raw humidity 21048 with the typical calibration, the base is 595, the gain 45160, and the unclamped value 26845577 |
| Bme280Datasheet.HumidityDiffersFromDatasheet | bmx_280.cpp:152-166 | on that input, the driver reports 6554/1024 %RH where the datasheet's shifts give 6553/1024 %RH |
| MpuX.ResetAndBypassBits | mpu_x.h:30-31 | the reset value is bit 7 of PWR_MGMT_1, and the bypass value is bit 1 of INT_PIN_CFG |
| MpuX.AxisRegistersSpaced | mpu_x.h:23-28 | each axis is a two-byte word: the X/Y/Z registers are two apart, and the gyroscope block follows the accelerometer block |
| MpuX.WakeValueClearsOnlySleep | mpu_x.cpp:15-18 | the PWR_MGMT_1 write clears bit 6 (SLEEP) and keeps every other bit that was read |
| MpuX.CalibrationWriteFields | mpu_x.cpp:32-63 | gyro bits 0-1 cleared; CONFIG low bits set to 110; accel and gyro full-scale bits 3-4 cleared; ACCEL_CONFIG_2 bit 3 cleared; all other bits as read |
| MpuX.FinalAccelConfig2FromAccelConfig | mpu_x.cpp:65-68 | the last ACCEL_CONFIG_2 write depends only on the ACCEL_CONFIG value read earlier, never on the ACCEL_CONFIG_2 reads |
| MpuX.FinalAccelConfig2Example | mpu_x.cpp:59-68 | when ACCEL_CONFIG read 0x08, ACCEL_CONFIG_2 ends as 0x0E, which sets again the bit 3 the previous write cleared |
| MpuX.AxisValue | mpu_x.cpp:101-109 | an axis is the signed big-endian word of its two registers, within [-32768, 32767]; getThreeValsRaw (`ThreeValsRaw`) reads each of the three axes this way |
| MpuX.ThreeValsComp | mpu_x.cpp:111-122 | adding the offset back to the compensated value gives the raw reading; a zero offset leaves the raw reading unchanged |
| MpuX.AcclScale | mpu_x.cpp:130-132 | multiplying the g value by 16384 LSB/g gives back the compensated counts |
| MpuX.GyroScale | mpu_x.cpp:143-145 | multiplying the °/s value by 16384/250 gives back the compensated counts |
| MpuX.SumOfConstant | mpu_x.cpp:76-90 | summing n identical samples gives n times that sample |
| MpuX.SumOfCompensated | mpu_x.cpp:117-119 | subtracting an offset from each of n samples subtracts n offsets from their sum |
| MpuX.SteadySensorOffsets | mpu_x.cpp:92-98 | with 100 identical samples, the offsets are the sample, less 16384 on accel z; a level sensor at rest gets zero offsets |
| MpuX.GyroCalibrationSamplesCompensate | mpu_x.cpp:96-98 | compensated with the offset they produced, the calibration gyro samples average to zero |
| MpuX.AcclCalibrationSamplesCompensate | mpu_x.cpp:92-94 | compensated with the offset they produced, the calibration accel samples average to exactly (0, 0, 1 g) |
| MpuX.MPUx.constructor | mpu_x.h:35-44 | stores the bus address, and both offsets start at zero |
| MpuX.MPUx.SelfCalibrate | mpu_x.cpp:30-99 | issues the six masked configuration writes, and the loop's running sums give offsets equal to the mean of the 100 samples, less 1 g on accel z |
| MpuX.MPUx.Init | mpu_x.cpp:5-28 | writes reset, bypass, and wake with SLEEP cleared; then the calibration writes; then sample-rate divider 5; the offsets come from the calibration samples |
| MpuX.MPUx.GetAcclVals | mpu_x.cpp:124-135 | the result times 16384, plus the accel offset, is the raw reading |
| MpuX.MPUx.GetGyroVals | mpu_x.cpp:137-148 | the result times 16384/250, plus the gyro offset, is the raw reading |
| MpuX.ReadingAtOffset | mpu_x.cpp:111-148 | a reading equal to the offset gives 0 °/s, and a reading 16384 counts above the offset on z gives exactly 1.0 g |

## Left out

- Bus transactions, `delay`, and the Wire library are not modelled. A register read is what a snapshot of the device's registers (`RegisterFile`) holds. A configuration write is a `RegWrite` entry in the list a method returns.
- `wakeUpDevice` and `i2cWriteToRegister` appear only as `RegWrite` entries. The 10 ms delay is not modelled.
- Serial output is left out as pure I/O: `printBMEData`, `printMPUData`, `identifyDevice` and `printAllI2CDevicesOnBus`.
- `fetch_and_plot.py` is not part of this model. It is host-side plotting.
- `globals.h` and `i2c_utils.h` are not part of this model. They hold only declarations and wiring.
- The BME getters read the sensor afresh on every call. Here the raw values `adcT`, `adcP` and `adcH` are parameters, already assembled by the three-byte and two-byte reads.
- The MPU calibration samples and the configuration bytes read during calibration are parameters. Each loop iteration reads both blocks from one snapshot.
- ReadWordFromRegister, ReadWordFromRegisterLE, ReadThreeBytesFromRegister: these require the device to answer with exactly the requested number of bytes. With fewer bytes the C++ buffer is read uninitialised; with more it overflows. Both are undefined behaviour.
- Signed overflow in `int32_t`/`int64_t` is undefined behaviour in C++. `TFineDefined`, `PressureReadDefined` and `HumidityReadDefined` require the steps that can overflow for some coefficients to fit. The pressure steps that cannot overflow are proved to fit by `EarlyPressureStepsFit` and `PressureNumeratorFits`. For humidity, `HumidityFixedStepsFit` proves it for four steps: `adcH * 16384`, `tFine - 76800`, and that difference times H6 and times H3. The product `var2 * (var3 + 32768)` at bmx_280.cpp:159 also depends only on tFine, H3 and H6, but it can overflow, so `HumidityDefined` requires it. The H4 term is required by `HumidityDefined` because an arbitrary int16 H4 can overflow it; `DecodedH4Fits` shows that an H4 decoded from the registers never does.
- The pressure steps after the division guard are not bounded further. No overflow-free bound was established for every coefficient set.
- Floating point is idealised as exact real arithmetic.
  - In the BME getters, the int→float conversions and the final divisions are modelled this way.
  - In the MPU driver, the float steps that round in the source are exact here:
    - the division by 100 that forms the offsets;
    - the subtraction of 16384.0f from the z mean of the accelerometer;
    - the subtraction of the offset from each raw axis;
    - the product with 250.0f in getGyroVals.
  - Two MPU float steps are exact in the source as well. A sum of 100 int16 samples stays below 2^24. Dividing by 16384.0f is dividing by a power of two.
- MpuX.MPUx.SelfCalibrate, MpuX.CalibrationConfigWrites: the six configuration writes are computed by a function of the values read, rather than by the statements interleaved with the reads. The values written and their order are the source's.
- MpuX.MPUx.SelfCalibrate: the loop adds each sample as one three-component addition. The source uses three separate `+=` statements; the result is the same.
- The last ACCEL_CONFIG_2 write in `selfCalibrate` (mpu_x.cpp:66) is built from ACCEL_CONFIG's value, not from the ACCEL_CONFIG_2 value re-read just before it. It is modelled as written, and its consequences are stated by `FinalAccelConfig2FromAccelConfig` and `FinalAccelConfig2Example`.
- The datasheet writes the compensation as shift chains, but the driver's temperature and humidity code divides. The model follows the driver's code. `Bme280Datasheet` is the shift-based reference for all three chains.
- Bmx280.GetHumidity: its distance from the datasheet's humidity is characterised only where every intermediate is non-negative (`HumidityMatchesDatasheet`), and by one input below 15 °C (`HumidityDiffersFromDatasheet`). No bound is proved for the other inputs: a rounding difference in the gain or the base is multiplied by the later products.
- `BME_REG_STATUS` and `IMU_REG_WHO_AM_I` are declared but unused by the driver. They appear only as constants.

=== FILE: bme280_datasheet.dfy ===
/**
 * The compensation as the BME280 datasheet (Bosch Sensortec) writes it in its
 * fixed-point reference code, where every scaling is an arithmetic right
 * shift.  The driver divides instead in the temperature and humidity chains,
 * and C++ division truncates toward zero where the shift rounds down, so the
 * two agree on non-negative intermediate values and may differ on negative
 * ones.  The driver's pressure chain is the datasheet's own (shifts, and one
 * division), so there the two differ only through tFine.
 */
module Bme280Datasheet {
  import opened Wrappers
  import opened FixedWidth
  import opened Bmx280

  /** var1 of the datasheet's reference code: the linear term. */
  function DatasheetVar1(c: CompVals, adc: int): int {
    Shr((Shr(adc, 3) - Shl(c.T1, 1)) * c.T2, 11)
  }

  /** var2 of the datasheet's reference code: the quadratic term. */
  function DatasheetVar2(c: CompVals, adc: int): int {
    var d := Shr(adc, 4) - c.T1;
    Shr(Shr(d * d, 12) * c.T3, 14)
  }

  /** t_fine of the datasheet's reference code. */
  function DatasheetTFine(c: CompVals, adcT: uint24): int {
    var adc := Shr(adcT, 4);
    DatasheetVar1(c, adc) + DatasheetVar2(c, adc)
  }

  /** The datasheet's temperature in hundredths of a degree Celsius. */
  function DatasheetTemperature(c: CompVals, adcT: uint24): int {
    Shr(DatasheetTFine(c, adcT) * 5 + 128, 8)
  }

  /** The driver's linear term is the datasheet's or one above it. */
  lemma Var1NearDatasheet(c: CompVals, adc: int)
    requires adc >= 0
    ensures 0 <= TempVar1(c, adc) - DatasheetVar1(c, adc) <= 1
    ensures (Shr(adc, 3) - 2 * c.T1) * c.T2 >= 0 ==> TempVar1(c, adc) == DatasheetVar1(c, adc)
  {
    Pow2Table();
    TruncDivNearShr(adc, 3);
    var d1 := Shr(adc, 3) - Shl(c.T1, 1);
    assert d1 == TruncDiv(adc, 8) - c.T1 * 2;
    TruncDivNearShr(d1 * c.T2, 11);
  }

  /** The two scalings of the quadratic term, applied to a square `sq`. */
  lemma ScaledSquareNear(sq: int, t3: int)
    requires sq >= 0
    ensures 0 <= TruncDiv(TruncDiv(sq, 4096) * t3, 16384) - Shr(Shr(sq, 12) * t3, 14) <= 1
    ensures t3 >= 0 ==> TruncDiv(TruncDiv(sq, 4096) * t3, 16384) == Shr(Shr(sq, 12) * t3, 14)
  {
    assert Pow2(12) == 4096 && Pow2(14) == 16384 by { Pow2Table(); }
    TruncDivNearShr(sq, 12);
    var q := Shr(sq, 12);
    assert q >= 0;
    TruncDivNearShr(q * t3, 14);
  }

  /** The driver's quadratic term is the datasheet's or one above it. */
  lemma Var2NearDatasheet(c: CompVals, adc: int)
    requires adc >= 0
    ensures 0 <= TempVar2(c, adc) - DatasheetVar2(c, adc) <= 1
    ensures c.T3 >= 0 ==> TempVar2(c, adc) == DatasheetVar2(c, adc)
  {
    assert Pow2(4) == 16 by { Pow2Table(); }
    TruncDivNearShr(adc, 4);
    var d := Shr(adc, 4) - c.T1;
    assert d == TruncDiv(adc, 16) - c.T1;
    ScaledSquareNear(d * d, c.T3);
  }

  /**
   * For every calibration and reading, the driver's tFine is the datasheet's
   * or at most two above it: each of its two truncating divisions rounds a
   * negative quotient up by at most one.
   */
  lemma DriverTFineNearDatasheet(c: CompVals, adcT: uint24)
    requires TFineDefined(c, adcT) && adcT != SKIPPED_24
    ensures 0 <= TFine(c, adcT) - DatasheetTFine(c, adcT) <= 2
  {
    var adc := Shr(adcT, 4);
    Var1NearDatasheet(c, adc);
    Var2NearDatasheet(c, adc);
  }

  /**
   * Where the two divided products are non-negative (a non-negative T2 term
   * and a non-negative T3), the driver's tFine is the datasheet's, and so is
   * its temperature when tFine * 5 + 128 is non-negative as well.
   */
  lemma DriverMatchesDatasheet(c: CompVals, adcT: uint24)
    requires TFineDefined(c, adcT) && adcT != SKIPPED_24
    requires (Shr(Shr(adcT, 4), 3) - 2 * c.T1) * c.T2 >= 0 && c.T3 >= 0
    ensures TFine(c, adcT) == DatasheetTFine(c, adcT)
    ensures TFine(c, adcT) != 0 && TFine(c, adcT) * 5 + 128 >= 0 ==>
      GetTemperature(c, adcT) == Some(DatasheetTemperature(c, adcT))
  {
    var adc := Shr(adcT, 4);
    Var1NearDatasheet(c, adc);
    Var2NearDatasheet(c, adc);
    assert TFine(c, adcT) == DatasheetTFine(c, adcT);
    assert Pow2(8) == 256 by { Pow2Table(); }
    TruncDivNearShr(TFine(c, adcT) * 5 + 128, 8);
  }

  /**
   * Whatever the calibration and reading, the driver's temperature is the
   * datasheet's or up to two hundredths of a degree above it: tFine is up to
   * two above, and the final division rounds a negative quotient up where the
   * shift rounds it down.
   */
  lemma DriverTemperatureNearDatasheet(c: CompVals, adcT: uint24)
    requires TFineDefined(c, adcT) && adcT != SKIPPED_24 && TFine(c, adcT) != 0
    ensures 0 <= GetTemperature(c, adcT).value - DatasheetTemperature(c, adcT) <= 2
  {
    DriverTFineNearDatasheet(c, adcT);
    var a := TFine(c, adcT) * 5 + 128;
    assert GetTemperature(c, adcT).value == TruncDiv(a, 256);
    assert Pow2(8) == 256 by { Pow2Table(); }
    TruncDivNearShr(a, 8);
  }

  /**
   * The two disagree: with T1 = 1, T2 = 3000, T3 = 0 and the raw reading 128,
   * the T2 product is -3000, which the driver divides to -1 and the datasheet
   * shifts to -2.
   */
  lemma DriverDiffersFromDatasheet(c: CompVals)
    requires c.T1 == 1 && c.T2 == 3000 && c.T3 == 0
    ensures TFineDefined(c, 128)
    ensures TFine(c, 128) == -1 && DatasheetTFine(c, 128) == -2
  {
    Pow2Table();
    FloorDivUnique(128, 16, 8);
    assert Shr(128, 4) == 8;
    Var1Differs(c);
    Var2Vanishes(c);
  }

  lemma Var1Differs(c: CompVals)
    requires c.T1 == 1 && c.T2 == 3000
    ensures TruncDiv(8, 8) - c.T1 * 2 == -1
    ensures TempVar1(c, 8) == -1 && DatasheetVar1(c, 8) == -2
  {
    Pow2Table();
    FloorDivUnique(8, 8, 1);
    FloorDivUnique(-3000, 2048, -2);
    assert TruncDiv(-3000, 2048) == -1;
  }

  lemma Var2Vanishes(c: CompVals)
    requires c.T1 == 1 && c.T3 == 0
    ensures TruncDiv(8, 16) - c.T1 == -1
    ensures TempVar2(c, 8) == 0 && DatasheetVar2(c, 8) == 0
  {
    Pow2Table();
    FloorDivUnique(8, 16, 0);
    FloorDivUnique(1, 4096, 0);
    FloorDivUnique(0, 0x4000, 0);
  }

  // ---------------------------------------------------------------------
  // Pressure
  // ---------------------------------------------------------------------

  /**
   * The datasheet's 64-bit pressure in Pa as Q24.8.  Its chain of shifts and
   * its one division are the driver's, so it is the driver's compensation
   * applied to the datasheet's tFine.
   */
  function DatasheetPressure(c: CompVals, adcT: uint24, adcP: uint24): int
    requires PressureDivisor(c, DatasheetTFine(c, adcT)) != 0
  {
    CompensatePressure(c, DatasheetTFine(c, adcT), Shr(adcP, 4))
  }

  /** The worked example at the datasheet's tFine 128422. */
  lemma WorkedExampleDatasheetTerms()
    ensures PressureOffset(TYPICAL_COMP_VALS, 128422) == 98104795527812
    ensures PressureScaled(TYPICAL_COMP_VALS, 128422) == -18467047103
    ensures PressureDivisor(TYPICAL_COMP_VALS, 128422) == 597560748
  {
    Pow2Table();
    assert Shl(59080, 17) == 7743733760;
    assert Shl(2855, 35) == 98097053040640;
    FloorDivUnique(538526016, 0x100, 2103617);
    assert Shr(538526016, 8) == 2103617;
    assert Shl(-4509070, 12) == -18469150720;
    assert Shl(1, 47) == 0x8000_0000_0000;
    FloorDivUnique(5133007740260123325, 0x2_0000_0000, 597560748);
  }

  /** The worked example's temperature by the datasheet's code. */
  lemma WorkedExampleDatasheetTemperature()
    ensures DatasheetTFine(TYPICAL_COMP_VALS, EXAMPLE_ADC_T) == 128422
    ensures DatasheetTemperature(TYPICAL_COMP_VALS, EXAMPLE_ADC_T) == 2508
  {
    var c := TYPICAL_COMP_VALS;
    Pow2Table();
    FloorDivUnique(0x7E_ED00, 0x10, 519888);
    assert Shr(EXAMPLE_ADC_T, 4) == 519888;
    FloorDivUnique(519888, 8, 64986);
    FloorDivUnique(263768430, 0x800, 128793);
    assert DatasheetVar1(c, 519888) == 128793;
    FloorDivUnique(519888, 0x10, 32493);
    FloorDivUnique(24890121, 0x1000, 6076);
    FloorDivUnique(-6076000, 0x4000, -371);
    assert DatasheetVar2(c, 519888) == -371;
    FloorDivUnique(642238, 0x100, 2508);
  }

  /** The pressure chain of the worked example at the datasheet's tFine 128422. */
  lemma WorkedExampleDatasheetChain()
    ensures PressureDivisor(TYPICAL_COMP_VALS, 128422) != 0
    ensures CompensatePressure(TYPICAL_COMP_VALS, 128422, 415148) == 25767233
  {
    var c := TYPICAL_COMP_VALS;
    WorkedExampleDatasheetTerms();
    Pow2Table();
    assert Shl(633428, 31) == 1360276272185344;
    assert TruncDiv(3944285864554787500, 597560748) == 6600644165;
    assert PressureQuotient(c, 128422, 415148) == 6600644165;
    FloorDivUnique(6600644165, 0x2000, 805742);
    FloorDivUnique(3895321023384000, 0x200_0000, 116089612);
    FloorDivUnique(-96369404809000, 0x8_0000, -183810053);
    FloorDivUnique(6532923724, 0x100, 25519233);
  }

  /**
   * The worked example by the datasheet's code: tFine 128422, one below the
   * driver's, the same 25.08 degrees Celsius, and 25767233 / 256 Pa
   * (100653.25 Pa), 7/256 Pa below the driver's 25767240 / 256 Pa.
   */
  lemma WorkedExampleDatasheet()
    ensures PressureDivisor(TYPICAL_COMP_VALS, DatasheetTFine(TYPICAL_COMP_VALS, EXAMPLE_ADC_T)) != 0
    ensures DatasheetPressure(TYPICAL_COMP_VALS, EXAMPLE_ADC_T, EXAMPLE_ADC_P) == 25767233
    ensures PressureReadDefined(TYPICAL_COMP_VALS, EXAMPLE_ADC_T, EXAMPLE_ADC_P)
    ensures GetPressure(TYPICAL_COMP_VALS, EXAMPLE_ADC_T, EXAMPLE_ADC_P)
      == Some(DatasheetPressure(TYPICAL_COMP_VALS, EXAMPLE_ADC_T, EXAMPLE_ADC_P) + 7)
  {
    var c := TYPICAL_COMP_VALS;
    WorkedExamplePressure();
    WorkedExampleDatasheetTemperature();
    WorkedExampleDatasheetChain();
    assert Pow2(4) == 0x10 by { Pow2Table(); }
    FloorDivUnique(0x65_5AC0, 0x10, 415148);
    assert DatasheetPressure(c, EXAMPLE_ADC_T, EXAMPLE_ADC_P) == CompensatePressure(c, 128422, 415148);
  }

  // ---------------------------------------------------------------------
  // Humidity
  // ---------------------------------------------------------------------

  /** The powers of two the humidity shifts use beyond those of the other chains. */
  lemma HumidityPowers()
    ensures Pow2(7) == 0x80 && Pow2(10) == 0x400 && Pow2(15) == 0x8000 && Pow2(20) == 0x10_0000
  {
    Pow2Table();
    assert Pow2(10) == 0x400;
    assert Pow2(15) == 0x8000;
    assert Pow2(20) == 0x10_0000;
  }

  /** The datasheet's reading with its offsets removed. */
  function DatasheetHumidityBase(c: CompVals, tFine: int, adcH: int): int {
    var var1 := tFine - 76800;
    Shr(Shl(adcH, 14) - Shl(c.H4, 20) - c.H5 * var1 + 16384, 15)
  }

  /** The datasheet's temperature-dependent gain. */
  function DatasheetHumidityGain(c: CompVals, tFine: int): int {
    var var1 := tFine - 76800;
    Shr((Shr(Shr(var1 * c.H6, 10) * (Shr(var1 * c.H3, 11) + 32768), 10) + 2097152) * c.H2 + 8192, 14)
  }

  /** The datasheet's quadratic correction subtracted from the product `x`. */
  function DatasheetHumidityCorrected(x: int, h1: int): int {
    x - Shr(Shr(Shr(x, 15) * Shr(x, 15), 7) * h1, 4)
  }

  /** The datasheet's humidity before it is clamped. */
  function DatasheetHumidityUnclamped(c: CompVals, tFine: int, adcH: int): int {
    DatasheetHumidityCorrected(DatasheetHumidityBase(c, tFine, adcH) * DatasheetHumidityGain(c, tFine), c.H1)
  }

  /** The datasheet's humidity in %RH as Q22.10: clamped, then shifted by 12. */
  function DatasheetHumidity(c: CompVals, tFine: int, adcH: int): int {
    var v := DatasheetHumidityUnclamped(c, tFine, adcH);
    Shr(if v < 0 then 0 else if v > HUMIDITY_CEILING then HUMIDITY_CEILING else v, 12)
  }

  /** With a non-negative numerator, the driver's base is the datasheet's. */
  lemma HumidityBaseMatches(c: CompVals, tFine: int, adcH: int)
    requires adcH * 16384 - c.H4 * 1048576 - c.H5 * (tFine - 76800) + 16384 >= 0
    ensures HumidityBase(c, tFine, adcH) == DatasheetHumidityBase(c, tFine, adcH)
    ensures HumidityBase(c, tFine, adcH) >= 0
  {
    HumidityPowers();
    assert Pow2(14) == 0x4000 by { Pow2Table(); }
    var num := adcH * 16384 - c.H4 * 1048576 - c.H5 * (tFine - 76800) + 16384;
    assert Shl(adcH, 14) - Shl(c.H4, 20) - c.H5 * (tFine - 76800) + 16384 == num;
    TruncDivNearShr(num, 15);
  }

  /** The gain's scalings agree for a non-negative `var1` and non-negative coefficients. */
  lemma GainScalingsMatch(var1: int, h6: int, h3: int, h2: int)
    requires var1 >= 0 && h6 >= 0 && h3 >= 0 && h2 >= 0
    ensures var d := TruncDiv(TruncDiv(var1 * h6, 1024) * (TruncDiv(var1 * h3, 2048) + 32768), 1024) + 2097152;
      var s := Shr(Shr(var1 * h6, 10) * (Shr(var1 * h3, 11) + 32768), 10) + 2097152;
      d == s && TruncDiv(d * h2 + 8192, 16384) == Shr(s * h2 + 8192, 14) && Shr(s * h2 + 8192, 14) >= 0
  {
    HumidityPowers();
    assert Pow2(11) == 0x800 && Pow2(14) == 0x4000 by { Pow2Table(); }
    var p6, p3 := var1 * h6, var1 * h3;
    ProductNonNegative(var1, h6);
    ProductNonNegative(var1, h3);
    TruncDivNearShr(p6, 10);
    TruncDivNearShr(p3, 11);
    var var2 := Shr(p6, 10);
    var var3 := Shr(p3, 11);
    var m := var2 * (var3 + 32768);
    ProductNonNegative(var2, var3 + 32768);
    TruncDivNearShr(m, 10);
    var var4 := Shr(m, 10) + 2097152;
    ProductNonNegative(var4, h2);
    TruncDivNearShr(var4 * h2 + 8192, 14);
  }

  /**
   * At or above tFine 76800, with non-negative H6 and H2, the driver's gain is
   * the datasheet's.
   */
  lemma HumidityGainMatches(c: CompVals, tFine: int)
    requires tFine >= 76800 && c.H6 >= 0 && c.H2 >= 0
    ensures HumidityGain(c, tFine) == DatasheetHumidityGain(c, tFine)
    ensures HumidityGain(c, tFine) >= 0
  {
    GainScalingsMatch(tFine - 76800, c.H6, c.H3, c.H2);
  }

  lemma ProductNonNegative(a: int, b: int)
    requires a >= 0 && b >= 0
    ensures a * b >= 0
  {
  }

  /** For a non-negative product, the driver's quadratic correction is the datasheet's. */
  lemma HumidityCorrectionMatches(x: int, h1: int)
    requires x >= 0 && h1 >= 0
    ensures x - TruncDiv(TruncDiv(TruncDiv(x, 32768) * TruncDiv(x, 32768), 128) * h1, 16)
      == DatasheetHumidityCorrected(x, h1)
  {
    HumidityPowers();
    assert Pow2(4) == 0x10 by { Pow2Table(); }
    TruncDivNearShr(x, 15);
    var q := Shr(x, 15);
    assert q >= 0;
    TruncDivNearShr(q * q, 7);
    var r := Shr(q * q, 7);
    assert r >= 0;
    TruncDivNearShr(r * h1, 4);
  }

  /**
   * Where every intermediate of the humidity chain is non-negative (tFine at
   * or above 76800, about 15 degrees Celsius, non-negative H6 and H2, and a
   * reading above the H4/H5 offset), the driver's unclamped humidity is the
   * datasheet's for the same tFine.
   */
  lemma HumidityUnclampedMatches(c: CompVals, tFine: int, adcH: int)
    requires tFine >= 76800 && c.H6 >= 0 && c.H2 >= 0
    requires adcH * 16384 - c.H4 * 1048576 - c.H5 * (tFine - 76800) + 16384 >= 0
    ensures HumidityUnclamped(c, tFine, adcH) == DatasheetHumidityUnclamped(c, tFine, adcH)
  {
    HumidityBaseMatches(c, tFine, adcH);
    HumidityGainMatches(c, tFine);
    var x := HumidityBase(c, tFine, adcH) * HumidityGain(c, tFine);
    ProductNonNegative(HumidityBase(c, tFine, adcH), HumidityGain(c, tFine));
    HumidityCorrectionMatches(x, c.H1);
  }

  /** Under the same conditions, the driver's reported humidity is the datasheet's. */
  lemma HumidityMatchesDatasheet(c: CompVals, adcT: uint24, adcH: uint16)
    requires HumidityReadDefined(c, adcT, adcH) && TFine(c, adcT) != 0 && adcH != SKIPPED_16
    requires TFine(c, adcT) >= 76800 && c.H6 >= 0 && c.H2 >= 0
    requires adcH * 16384 - c.H4 * 1048576 - c.H5 * (TFine(c, adcT) - 76800) + 16384 >= 0
    ensures GetHumidity(c, adcT, adcH) == Some(DatasheetHumidity(c, TFine(c, adcT), adcH))
  {
    var tFine := TFine(c, adcT);
    HumidityUnclampedMatches(c, tFine, adcH);
    var v := HumidityUnclamped(c, tFine, adcH);
    var clamped := if v < 0 then 0 else if v > HUMIDITY_CEILING then HUMIDITY_CEILING else v;
    assert Pow2(12) == 0x1000 by { Pow2Table(); }
    TruncDivNearShr(clamped, 12);
  }

  /**
   * Below about 15 degrees Celsius they can differ: with the typical
   * calibration, tFine 20000 and the raw humidity 21048, the driver's gain
   * term divides -1704000 / 1024 to -1664 where the datasheet shifts it to
   * -1665, and the driver reports 6554 / 1024 %RH where the datasheet
   * reports 6553 / 1024 %RH.
   */
  lemma HumidityDiffersFromDatasheet()
    ensures HumidityUnclamped(TYPICAL_COMP_VALS, 20000, 21048) == 26845577
    ensures DatasheetHumidityUnclamped(TYPICAL_COMP_VALS, 20000, 21048) == 26845043
    ensures HumidityValue(HumidityUnclamped(TYPICAL_COMP_VALS, 20000, 21048)) == 6554
    ensures DatasheetHumidity(TYPICAL_COMP_VALS, 20000, 21048) == 6553
  {
    HumidityDriverExample();
    HumidityDatasheetExample();
    HumidityExampleScaled();
  }

  lemma HumidityExampleScaled()
    ensures HumidityValue(26845577) == 6554
    ensures Shr(26845043, 12) == 6553
  {
    assert Pow2(12) == 0x1000 by { Pow2Table(); }
    FloorDivUnique(26845577, 0x1000, 6554);
    FloorDivUnique(26845043, 0x1000, 6553);
  }

  lemma HumidityDriverExample()
    ensures HumidityBase(TYPICAL_COMP_VALS, 20000, 21048) == 595
    ensures HumidityGain(TYPICAL_COMP_VALS, 20000) == 45160
    ensures HumidityUnclamped(TYPICAL_COMP_VALS, 20000, 21048) == 26845577
  {
    FloorDivUnique(19502528, 0x8000, 595);
    assert TruncDiv(-1704000, 1024) == -1664;
    assert TruncDiv(-1664 * 32768, 1024) == -53248;
    assert TruncDiv(2043904 * 362 + 8192, 16384) == 45160;
    assert TruncDiv(26870200, 32768) == 820;
    assert TruncDiv(672400, 128) == 5253;
    assert TruncDiv(5253 * 75, 16) == 24623;
  }

  lemma HumidityDatasheetExample()
    ensures DatasheetHumidityBase(TYPICAL_COMP_VALS, 20000, 21048) == 595
    ensures DatasheetHumidityGain(TYPICAL_COMP_VALS, 20000) == 45159
    ensures DatasheetHumidityUnclamped(TYPICAL_COMP_VALS, 20000, 21048) == 26845043
  {
    HumidityPowers();
    Pow2Table();
    assert Shl(21048, 14) == 344850432;
    assert Shl(313, 20) == 328204288;
    FloorDivUnique(19502528, 0x8000, 595);
    FloorDivUnique(-1704000, 0x400, -1665);
    FloorDivUnique(0, 0x800, 0);
    FloorDivUnique(-1665 * 32768, 0x400, -53280);
    FloorDivUnique(2043872 * 362 + 8192, 0x4000, 45159);
    FloorDivUnique(26869605, 0x8000, 819);
    FloorDivUnique(670761, 0x80, 5240);
    FloorDivUnique(5240 * 75, 0x10, 24562);
  }
}

=== FILE: bmx280.dfy ===
/**
 * The BME280 driver: the calibration coefficients it loads from the sensor's
 * non-volatile registers, and the fixed-point compensation that turns raw
 * temperature, pressure and humidity readings into physical values.
 *
 * Every getter of the driver reads the sensor afresh; here the raw readings
 * are parameters (`adcT`, `adcP`, `adcH`, as the three-byte and two-byte
 * register reads assemble them), and a NaN result is `None`.  The C++ code
 * computes in int32_t and int64_t, where overflow is undefined behaviour:
 * each getter requires the intermediate values that can leave their type to
 * fit, and the bounds that always hold are proved.
 */
module Bmx280 {
  import opened Wrappers
  import opened FixedWidth
  import opened I2cUtils

  // Register addresses
  const BME_REG_ID: bv8 := 0xD0
  const BME_REG_RESET: bv8 := 0xE0
  const BME_REG_CONTROLHUMID: bv8 := 0xF2
  const BME_REG_STATUS: bv8 := 0xF3
  const BME_REG_CONTROL: bv8 := 0xF4
  const BME_REG_CONFIG: bv8 := 0xF5
  const BME_REG_PRESSUREDATA: bv8 := 0xF7
  const BME_REG_TEMPDATA: bv8 := 0xFA
  const BME_REG_HUMIDDATA: bv8 := 0xFD

  const BME_VAL_RESET_SOFT: bv8 := 0xB6

  // Compensation registers
  const BME_REG_COMP_T1: bv8 := 0x88
  const BME_REG_COMP_T2: bv8 := 0x8A
  const BME_REG_COMP_T3: bv8 := 0x8C

  const BME_REG_COMP_P1: bv8 := 0x8E
  const BME_REG_COMP_P2: bv8 := 0x90
  const BME_REG_COMP_P3: bv8 := 0x92
  const BME_REG_COMP_P4: bv8 := 0x94
  const BME_REG_COMP_P5: bv8 := 0x96
  const BME_REG_COMP_P6: bv8 := 0x98
  const BME_REG_COMP_P7: bv8 := 0x9A
  const BME_REG_COMP_P8: bv8 := 0x9C
  const BME_REG_COMP_P9: bv8 := 0x9E

  const BME_REG_COMP_H1: bv8 := 0xA1
  const BME_REG_COMP_H2: bv8 := 0xE1
  const BME_REG_COMP_H3: bv8 := 0xE3
  const BME_REG_COMP_H4: bv8 := 0xE4
  const BME_REG_COMP_H5: bv8 := 0xE5
  const BME_REG_COMP_H6: bv8 := 0xE7

  /** The registers of T1..T3 and P1..P9, in the order of the struct fields. */
  const TP_COMP_REGS: seq<bv8> := [
    BME_REG_COMP_T1, BME_REG_COMP_T2, BME_REG_COMP_T3,
    BME_REG_COMP_P1, BME_REG_COMP_P2, BME_REG_COMP_P3, BME_REG_COMP_P4, BME_REG_COMP_P5,
    BME_REG_COMP_P6, BME_REG_COMP_P7, BME_REG_COMP_P8, BME_REG_COMP_P9]

  // The values init() writes, and the identifier it expects back
  const HUMIDITY_OVERSAMPLING_X16: bv8 := 0x05
  const CONFIG_NO_FILTER: bv8 := 0x00
  const CONTROL_X16_NORMAL_MODE: bv8 := 0xB7
  const BME280_CHIP_ID: bv8 := 0x60

  /** What the sensor reports in a temperature or pressure register it skipped. */
  const SKIPPED_24: uint24 := 0x80_0000
  /** What the sensor reports in the humidity register when it skipped it. */
  const SKIPPED_16: uint16 := 0x8000

  /** A bound on |tFine|: 2^20 from the T2 term plus 2^17 from the T3 term. */
  const TFINE_BOUND := 0x12_0000
  /** 100 %RH in Q22.10, times the final divisor 4096. */
  const HUMIDITY_CEILING := 419430400

  /** The calibration coefficients, with the widths and signedness of the C++ struct. */
  datatype CompVals = CompVals(
    T1: uint16, T2: int16, T3: int16,
    P1: uint16, P2: int16, P3: int16, P4: int16, P5: int16,
    P6: int16, P7: int16, P8: int16, P9: int16,
    H1: uint8, H2: int16, H3: uint8, H4: int16, H5: int16, H6: int8)

  // ---------------------------------------------------------------------
  // Loading the coefficients
  // ---------------------------------------------------------------------

  /** What i2cReadWordFromRegisterLE returns for register `reg`. */
  function WordLEAt(regs: RegisterFile, reg: bv8): bv16
    requires reg < 0xFF
  {
    Swap16(WordBE(regs[reg], regs[reg + 1]))
  }

  /**
   * `(int16_t)(((int8_t)msb << 4) | low)`: a signed 12-bit coefficient whose
   * upper eight bits come from `msb` and whose lower four bits are `low`.
   */
  function Packed12(msb: bv8, low: bv8): int16
    requires low < 0x10
  {
    AsInt16((SignExtend8(msb) << 4) | (low as bv16))
  }

  /** The coefficients as populate*CompensationValues assemble them from the registers. */
  function DecodeCompVals(regs: RegisterFile): CompVals {
    CompVals(
      T1 := WordLEAt(regs, BME_REG_COMP_T1) as int,
      T2 := AsInt16(WordLEAt(regs, BME_REG_COMP_T2)),
      T3 := AsInt16(WordLEAt(regs, BME_REG_COMP_T3)),
      P1 := WordLEAt(regs, BME_REG_COMP_P1) as int,
      P2 := AsInt16(WordLEAt(regs, BME_REG_COMP_P2)),
      P3 := AsInt16(WordLEAt(regs, BME_REG_COMP_P3)),
      P4 := AsInt16(WordLEAt(regs, BME_REG_COMP_P4)),
      P5 := AsInt16(WordLEAt(regs, BME_REG_COMP_P5)),
      P6 := AsInt16(WordLEAt(regs, BME_REG_COMP_P6)),
      P7 := AsInt16(WordLEAt(regs, BME_REG_COMP_P7)),
      P8 := AsInt16(WordLEAt(regs, BME_REG_COMP_P8)),
      P9 := AsInt16(WordLEAt(regs, BME_REG_COMP_P9)),
      H1 := regs[BME_REG_COMP_H1] as int,
      H2 := AsInt16(WordLEAt(regs, BME_REG_COMP_H2)),
      H3 := regs[BME_REG_COMP_H3] as int,
      H4 := Packed12(regs[BME_REG_COMP_H4], regs[BME_REG_COMP_H4 + 1] & 0x0F),
      H5 := Packed12(regs[BME_REG_COMP_H5 + 1], regs[BME_REG_COMP_H5] >> 4),
      H6 := AsInt8(regs[BME_REG_COMP_H6]))
  }

  /** The little-endian 16-bit value of registers `a` (low byte) and `a + 1`. */
  function RegsLE(regs: RegisterFile, a: nat): int
    requires a < 0xFF
  {
    regs[a] as int + 0x100 * regs[a + 1] as int
  }

  /** The twelve T and P coefficients sit in consecutive two-byte slots from 0x88. */
  lemma TPRegistersConsecutive()
    ensures |TP_COMP_REGS| == 12
    ensures forall k :: 0 <= k < 12 ==> TP_COMP_REGS[k] as int == 0x88 + 2 * k
    ensures BME_REG_COMP_H5 == BME_REG_COMP_H4 + 1
  {
  }

  lemma ByteTimes16(msb: bv8, low: bv8)
    requires msb < 0x80 && low < 0x10
    ensures ((msb as bv16) * 0x10 + (low as bv16)) as int == msb as int * 0x10 + low as int
  {
  }

  lemma NegativeByteTimes16(msb: bv8, low: bv8)
    requires msb >= 0x80 && low < 0x10
    ensures ((msb as bv16) * 0x10 + 0xF000 + (low as bv16)) as int
      == msb as int * 0x10 + 0xF000 + low as int
  {
  }

  lemma PackedPositiveBits(msb: bv8, low: bv8)
    requires msb < 0x80 && low < 0x10
    ensures (SignExtend8(msb) << 4) | (low as bv16) == (msb as bv16) * 0x10 + (low as bv16)
  {
  }

  lemma PackedNegativeBits(msb: bv8, low: bv8)
    requires msb >= 0x80 && low < 0x10
    ensures (SignExtend8(msb) << 4) | (low as bv16) == (msb as bv16) * 0x10 + 0xF000 + (low as bv16)
  {
  }

  lemma PackedPositiveValue(msb: bv8, low: bv8)
    requires msb < 0x80 && low < 0x10
    ensures Packed12(msb, low) == msb as int * 0x10 + low as int
  {
    PackedPositiveBits(msb, low);
    ByteTimes16(msb, low);
  }

  lemma PackedNegativeValue(msb: bv8, low: bv8)
    requires msb >= 0x80 && low < 0x10
    ensures Packed12(msb, low) == msb as int * 0x10 + 0xF000 + low as int - 0x1_0000
  {
    PackedNegativeBits(msb, low);
    NegativeByteTimes16(msb, low);
  }

  /**
   * The packed coefficient is the signed upper byte times 16 plus the lower
   * nibble, so it lies in the 12-bit range [-2048, 2047].
   */
  lemma Packed12Value(msb: bv8, low: bv8)
    requires low < 0x10
    ensures Packed12(msb, low) == AsInt8(msb) * 0x10 + low as int
    ensures -0x800 <= Packed12(msb, low) < 0x800
  {
    if msb < 0x80 {
      PackedPositiveValue(msb, low);
      assert msb as int < 0x80;
    } else {
      PackedNegativeValue(msb, low);
      assert msb as int >= 0x80;
    }
  }

  /**
   * Two worked H4 decodings: registers 0xE4/0xE5 holding 0x12/0x34 give
   * 0x124 = 292, and holding 0xF2/0x34 give -14 * 16 + 4 = -220.
   */
  lemma Packed12Examples()
    ensures Packed12(0x12, 0x34 & 0x0F) == 292
    ensures Packed12(0xF2, 0x34 & 0x0F) == -220
  {
    Packed12Value(0x12, 0x04);
    Packed12Value(0xF2, 0x04);
  }

  /**
   * The register layout of the temperature coefficients: T1 an unsigned and
   * T2, T3 signed little-endian words in consecutive slots from 0x88.
   */
  lemma TemperatureLayout(regs: RegisterFile)
    ensures var c := DecodeCompVals(regs);
      && c.T1 == RegsLE(regs, 0x88) && c.T2 % 0x1_0000 == RegsLE(regs, 0x8A)
      && c.T3 % 0x1_0000 == RegsLE(regs, 0x8C)
  {
    WordLEAtValue(regs, BME_REG_COMP_T1);
    SignedWordLE(regs, BME_REG_COMP_T2);
    SignedWordLE(regs, BME_REG_COMP_T3);
  }

  /**
   * The register layout of the pressure coefficients: P1 an unsigned and
   * P2..P9 signed little-endian words in consecutive slots from 0x8E.
   */
  lemma PressureLayout(regs: RegisterFile)
    ensures var c := DecodeCompVals(regs);
      && c.P1 == RegsLE(regs, 0x8E) && c.P2 % 0x1_0000 == RegsLE(regs, 0x90)
      && c.P3 % 0x1_0000 == RegsLE(regs, 0x92) && c.P4 % 0x1_0000 == RegsLE(regs, 0x94)
      && c.P5 % 0x1_0000 == RegsLE(regs, 0x96) && c.P6 % 0x1_0000 == RegsLE(regs, 0x98)
      && c.P7 % 0x1_0000 == RegsLE(regs, 0x9A) && c.P8 % 0x1_0000 == RegsLE(regs, 0x9C)
      && c.P9 % 0x1_0000 == RegsLE(regs, 0x9E)
  {
    WordLEAtValue(regs, BME_REG_COMP_P1);
    SignedWordLE(regs, BME_REG_COMP_P2);
    SignedWordLE(regs, BME_REG_COMP_P3);
    SignedWordLE(regs, BME_REG_COMP_P4);
    SignedWordLE(regs, BME_REG_COMP_P5);
    SignedWordLE(regs, BME_REG_COMP_P6);
    SignedWordLE(regs, BME_REG_COMP_P7);
    SignedWordLE(regs, BME_REG_COMP_P8);
    SignedWordLE(regs, BME_REG_COMP_P9);
  }

  /**
   * The register layout of the byte and word humidity coefficients: H1 and
   * H3 unsigned bytes, H2 a signed little-endian word, H6 a signed byte.
   */
  lemma HumidityLayout(regs: RegisterFile)
    ensures var c := DecodeCompVals(regs);
      && c.H1 == regs[0xA1] as int && c.H2 % 0x1_0000 == RegsLE(regs, 0xE1)
      && c.H3 == regs[0xE3] as int && c.H6 % 0x100 == regs[0xE7] as int
  {
    SignedWordLE(regs, BME_REG_COMP_H2);
    AsInt8Congruent(regs[0xE7]);
  }

  /**
   * H4 and H5 are signed 12-bit values that share register 0xE5: H4 is the
   * signed byte at 0xE4 followed by the low nibble of 0xE5, H5 the signed
   * byte at 0xE6 followed by the high nibble of 0xE5.
   */
  lemma SharedNibbleLayout(regs: RegisterFile)
    ensures var c := DecodeCompVals(regs);
      && c.H4 == AsInt8(regs[0xE4]) * 0x10 + regs[0xE5] as int % 0x10
      && c.H5 == AsInt8(regs[0xE6]) * 0x10 + regs[0xE5] as int / 0x10
      && -0x800 <= c.H4 < 0x800 && -0x800 <= c.H5 < 0x800
  {
    var c := DecodeCompVals(regs);
    var shared := regs[0xE5];
    NibbleValues(shared);
    assert c.H4 == Packed12(regs[0xE4], shared & 0x0F);
    Packed12Value(regs[0xE4], shared & 0x0F);
    assert c.H5 == Packed12(regs[0xE6], shared >> 4);
    Packed12Value(regs[0xE6], shared >> 4);
  }

  lemma WordLEAtValue(regs: RegisterFile, reg: bv8)
    requires reg < 0xFF
    ensures WordLEAt(regs, reg) as int == RegsLE(regs, reg as int)
  {
    WordLEValue(regs[reg], regs[reg + 1]);
  }

  lemma SignedWordLE(regs: RegisterFile, reg: bv8)
    requires reg < 0xFF
    ensures AsInt16(WordLEAt(regs, reg)) % 0x1_0000 == RegsLE(regs, reg as int)
  {
    WordLEAtValue(regs, reg);
    AsInt16Congruent(WordLEAt(regs, reg));
  }

  lemma NibbleValues(b: bv8)
    ensures (b & 0x0F) as int == b as int % 0x10
    ensures (b >> 4) as int == b as int / 0x10
  {
  }

  /** H4 as the registers can encode it never makes `H4 * 1048576` leave int32_t. */
  lemma DecodedH4Fits(regs: RegisterFile)
    ensures InInt32(DecodeCompVals(regs).H4 * 0x10_0000)
  {
    Packed12Value(regs[BME_REG_COMP_H4], regs[BME_REG_COMP_H4 + 1] & 0x0F);
  }

  // ---------------------------------------------------------------------
  // Temperature
  // ---------------------------------------------------------------------

  /** var1 of getTFine: the linear term in the raw temperature. */
  function TempVar1(c: CompVals, adc: int): int {
    TruncDiv((TruncDiv(adc, 8) - c.T1 * 2) * c.T2, 2048)
  }

  /** var2 of getTFine: the quadratic term in the raw temperature. */
  function TempVar2(c: CompVals, adc: int): int {
    var d := TruncDiv(adc, 16) - c.T1;
    TruncDiv(TruncDiv(d * d, 4096) * c.T3, 16384)
  }

  /** The int32_t products of getTFine fit; the other intermediates always do. */
  predicate TFineDefined(c: CompVals, adcT: uint24) {
    adcT == SKIPPED_24 ||
    (var adc := Shr(adcT, 4);
     var d1 := TruncDiv(adc, 8) - c.T1 * 2;
     var d2 := TruncDiv(adc, 16) - c.T1;
     InInt32(d1 * c.T2) && InInt32(d2 * d2) && InInt32(TruncDiv(d2 * d2, 4096) * c.T3))
  }

  /**
   * getTFine: the fine temperature the pressure and humidity compensation
   * share, 0 when the temperature measurement was skipped.
   */
  function TFine(c: CompVals, adcT: uint24): (tFine: int)
    requires TFineDefined(c, adcT)
    ensures adcT == SKIPPED_24 ==> tFine == 0
    ensures Abs(tFine) <= TFINE_BOUND
  {
    if adcT == SKIPPED_24 then 0
    else
      var adc := Shr(adcT, 4);
      TempVar1(c, adc) + TempVar2(c, adc)
  }

  /**
   * getTemperature in hundredths of a degree Celsius: (tFine * 5 + 128) / 256
   * with C++ division, which truncates toward zero, so the quotient is rounded
   * down for a non-negative dividend and up for a negative one; None where the
   * source returns NaN (tFine == 0).
   */
  function GetTemperature(c: CompVals, adcT: uint24): (t: Option<int>)
    requires TFineDefined(c, adcT)
    ensures t.None? <==> TFine(c, adcT) == 0
    ensures t.Some? ==> var a := TFine(c, adcT) * 5 + 128;
      && (a >= 0 ==> t.value * 256 <= a < t.value * 256 + 256)
      && (a < 0 ==> t.value * 256 - 256 < a <= t.value * 256)
    ensures t.Some? ==> Abs(t.value) <= 23040
  {
    var tFine := TFine(c, adcT);
    if tFine == 0 then None
    else
      TruncDivBounds(tFine * 5 + 128, 256);
      Some(TruncDiv(tFine * 5 + 128, 256))
  }

  // ---------------------------------------------------------------------
  // Pressure
  // ---------------------------------------------------------------------

  /** var2 after bmx_280.cpp:123 in getPressure: the offset of the pressure polynomial. */
  function PressureOffset(c: CompVals, tFine: int): int {
    var var1 := tFine - 128000;
    var1 * var1 * c.P6 + Shl(var1 * c.P5, 17) + Shl(c.P4, 35)
  }

  /** var1 after bmx_280.cpp:124 in getPressure: the temperature correction of the scale. */
  function PressureScaled(c: CompVals, tFine: int): int {
    var var1 := tFine - 128000;
    Shr(var1 * var1 * c.P3, 8) + Shl(var1 * c.P2, 12)
  }

  /** var1 after bmx_280.cpp:125 in getPressure: the divisor of the pressure quotient. */
  function PressureDivisor(c: CompVals, tFine: int): int {
    Shr((Shl(1, 47) + PressureScaled(c, tFine)) * c.P1, 33)
  }

  /** P after bmx_280.cpp:132 in getPressure. */
  function PressureQuotient(c: CompVals, tFine: int, adc: int): int
    requires PressureDivisor(c, tFine) != 0
  {
    TruncDiv((Shl(1048576 - adc, 31) - PressureOffset(c, tFine)) * 3125, PressureDivisor(c, tFine))
  }

  /** P after bmx_280.cpp:136 in getPressure: pressure in Pa as Q24.8. */
  function CompensatePressure(c: CompVals, tFine: int, adc: int): int
    requires PressureDivisor(c, tFine) != 0
  {
    var p := PressureQuotient(c, tFine, adc);
    var var1 := Shr(c.P9 * Shr(p, 13) * Shr(p, 13), 25);
    var var2 := Shr(c.P8 * p, 19);
    Shr(p + var1 + var2, 8) + Shl(c.P7, 4)
  }

  /** The int64_t steps of bmx_280.cpp:120-124 and the sum at bmx_280.cpp:125 fit. */
  predicate PressureEarlyStepsFit(c: CompVals, tFine: int) {
    var var1 := tFine - 128000;
    && InInt64(var1 * var1) && InInt64(var1 * var1 * c.P6)
    && InInt64(var1 * c.P5) && InInt64(Shl(var1 * c.P5, 17))
    && InInt64(var1 * var1 * c.P6 + Shl(var1 * c.P5, 17)) && InInt64(Shl(c.P4, 35))
    && InInt64(PressureOffset(c, tFine))
    && InInt64(var1 * var1 * c.P3) && InInt64(var1 * c.P2) && InInt64(Shl(var1 * c.P2, 12))
    && InInt64(PressureScaled(c, tFine)) && InInt64(Shl(1, 47) + PressureScaled(c, tFine))
  }

  /**
   * The int64_t steps of getPressure that can overflow for some coefficients:
   * the product with P1 at bmx_280.cpp:125 and the steps after the division guard.
   */
  predicate PressureDefined(c: CompVals, tFine: int, adc: int) {
    InInt64((Shl(1, 47) + PressureScaled(c, tFine)) * c.P1) &&
    (PressureDivisor(c, tFine) != 0 ==>
      var num := Shl(1048576 - adc, 31) - PressureOffset(c, tFine);
      var p := PressureQuotient(c, tFine, adc);
      var var1 := Shr(c.P9 * Shr(p, 13) * Shr(p, 13), 25);
      && InInt64(num * 3125)
      && InInt64(c.P9 * Shr(p, 13)) && InInt64(c.P9 * Shr(p, 13) * Shr(p, 13))
      && InInt64(c.P8 * p) && InInt64(p + var1) && InInt64(p + var1 + Shr(c.P8 * p, 19))
      && InInt64(CompensatePressure(c, tFine, adc)))
  }

  /** The offset steps of bmx_280.cpp:120-123 stay below 2^58 in magnitude. */
  lemma PressureOffsetFits(c: CompVals, tFine: int)
    requires Abs(tFine) <= TFINE_BOUND
    ensures var var1 := tFine - 128000;
      && Abs(var1 * var1) <= 0x400_0000_0000 && Abs(var1 * var1 * c.P6) <= 0x200_0000_0000_0000
      && Abs(var1 * c.P5) <= 0x10_0000_0000 && Abs(Shl(var1 * c.P5, 17)) <= 0x20_0000_0000_0000
      && Abs(Shl(c.P4, 35)) <= 0x4_0000_0000_0000
  {
    assert Pow2(17) == 0x2_0000 && Pow2(35) == 0x8_0000_0000 by { Pow2Table(); }
    var var1 := tFine - 128000;
    var b21 := 0x20_0000;
    var b15 := 0x8000;
    MulBound(var1, var1, b21, b21);
    MulBound(var1 * var1, c.P6, b21 * b21, b15);
    MulBound(var1, c.P5, b21, b15);
    MulBound(var1 * c.P5, 0x2_0000, b21 * b15, 0x2_0000);
    MulBound(c.P4, 0x8_0000_0000, b15, 0x8_0000_0000);
  }

  /** The scale steps of bmx_280.cpp:124 stay below 2^50 in magnitude. */
  lemma PressureScaledFits(c: CompVals, tFine: int)
    requires Abs(tFine) <= TFINE_BOUND
    ensures var var1 := tFine - 128000;
      && Abs(var1 * var1 * c.P3) <= 0x200_0000_0000_0000
      && Abs(Shr(var1 * var1 * c.P3, 8)) <= 0x2_0000_0000_0000
      && Abs(var1 * c.P2) <= 0x10_0000_0000 && Abs(Shl(var1 * c.P2, 12)) <= 0x1_0000_0000_0000
  {
    assert Pow2(8) == 0x100 && Pow2(12) == 0x1000 by { Pow2Table(); }
    var var1 := tFine - 128000;
    var b21 := 0x20_0000;
    var b15 := 0x8000;
    MulBound(var1, var1, b21, b21);
    MulBound(var1 * var1, c.P3, b21 * b21, b15);
    MulBound(var1, c.P2, b21, b15);
    MulBound(var1 * c.P2, 0x1000, b21 * b15, 0x1000);
  }

  /** The steps of bmx_280.cpp:120-124 never overflow once tFine is in its range. */
  lemma EarlyPressureStepsFit(c: CompVals, tFine: int)
    requires Abs(tFine) <= TFINE_BOUND
    ensures PressureEarlyStepsFit(c, tFine)
  {
    assert Shl(1, 47) == 0x8000_0000_0000 by { Pow2Table(); }
    PressureOffsetFits(c, tFine);
    PressureScaledFits(c, tFine);
    var var1 := tFine - 128000;
    assert PressureOffset(c, tFine) == var1 * var1 * c.P6 + Shl(var1 * c.P5, 17) + Shl(c.P4, 35);
    assert PressureScaled(c, tFine) == Shr(var1 * var1 * c.P3, 8) + Shl(var1 * c.P2, 12);
  }

  /** Everything getPressure computes fits its C++ type. */
  predicate PressureReadDefined(c: CompVals, adcT: uint24, adcP: uint24) {
    TFineDefined(c, adcT) &&
    (TFine(c, adcT) != 0 && adcP != SKIPPED_24 ==> PressureDefined(c, TFine(c, adcT), Shr(adcP, 4)))
  }

  /** The shifted raw pressure leaves the base `1048576 - adcP` in [1, 2^20]. */
  lemma PressureBaseRange(adcP: uint24)
    ensures 1 <= 1048576 - Shr(adcP, 4) <= 1048576
  {
    Pow2Table();
  }

  /** `P << 31` and the numerator `(P << 31) - var2` of bmx_280.cpp:132 always fit int64_t. */
  lemma PressureNumeratorFits(c: CompVals, tFine: int, adcP: uint24)
    requires Abs(tFine) <= TFINE_BOUND
    ensures var base := 1048576 - Shr(adcP, 4);
      && 0 < Shl(base, 31) <= 0x8_0000_0000_0000
      && Abs(Shl(base, 31) - PressureOffset(c, tFine)) < 0x800_0000_0000_0000
      && InInt64(Shl(base, 31)) && InInt64(Shl(base, 31) - PressureOffset(c, tFine))
  {
    PressureBaseRange(adcP);
    PressureOffsetFits(c, tFine);
    assert Pow2(31) == 0x8000_0000 by { Pow2Table(); }
    var var1 := tFine - 128000;
    assert PressureOffset(c, tFine) == var1 * var1 * c.P6 + Shl(var1 * c.P5, 17) + Shl(c.P4, 35);
  }

  /**
   * getPressure in Pa as Q24.8: None where the source returns NaN, which is
   * exactly when tFine is 0, the pressure measurement was skipped, or the
   * divisor is zero (the guard against division by zero).
   */
  function GetPressure(c: CompVals, adcT: uint24, adcP: uint24): (p: Option<int>)
    requires PressureReadDefined(c, adcT, adcP)
    ensures p.None? <==>
      TFine(c, adcT) == 0 || adcP == SKIPPED_24 || PressureDivisor(c, TFine(c, adcT)) == 0
    ensures p.Some? ==> InInt64(p.value) && PressureEarlyStepsFit(c, TFine(c, adcT))
  {
    var tFine := TFine(c, adcT);
    if tFine == 0 || adcP == SKIPPED_24 then None
    else if PressureDivisor(c, tFine) == 0 then None
    else
      EarlyPressureStepsFit(c, tFine);
      Some(CompensatePressure(c, tFine, Shr(adcP, 4)))
  }

  // ---------------------------------------------------------------------
  // Humidity
  // ---------------------------------------------------------------------

  /** var5 after bmx_280.cpp:156 in getHumidity: the reading with its offsets removed. */
  function HumidityBase(c: CompVals, tFine: int, adcH: int): int {
    var var1 := tFine - 76800;
    TruncDiv(adcH * 16384 - c.H4 * 1048576 - c.H5 * var1 + 16384, 32768)
  }

  /** var2 after bmx_280.cpp:160 in getHumidity: the temperature-dependent gain. */
  function HumidityGain(c: CompVals, tFine: int): int {
    var var1 := tFine - 76800;
    var var2 := TruncDiv(var1 * c.H6, 1024);
    var var3 := TruncDiv(var1 * c.H3, 2048);
    var var4 := TruncDiv(var2 * (var3 + 32768), 1024) + 2097152;
    TruncDiv(var4 * c.H2 + 8192, 16384)
  }

  /** var5 after bmx_280.cpp:163 in getHumidity, before it is clamped. */
  function HumidityUnclamped(c: CompVals, tFine: int, adcH: int): int {
    var var3 := HumidityBase(c, tFine, adcH) * HumidityGain(c, tFine);
    var var4 := TruncDiv(TruncDiv(var3, 32768) * TruncDiv(var3, 32768), 128);
    var3 - TruncDiv(var4 * c.H1, 16)
  }

  /** The int32_t steps of getHumidity that can overflow for some coefficients. */
  predicate HumidityDefined(c: CompVals, tFine: int, adcH: int) {
    var var1 := tFine - 76800;
    var var2 := TruncDiv(var1 * c.H6, 1024);
    var var3 := TruncDiv(var1 * c.H3, 2048);
    var var4 := TruncDiv(var2 * (var3 + 32768), 1024) + 2097152;
    var prod := HumidityBase(c, tFine, adcH) * HumidityGain(c, tFine);
    var q := TruncDiv(prod, 32768);
    && InInt32(c.H4 * 1048576) && InInt32(c.H5 * var1)
    && InInt32(adcH * 16384 - c.H4 * 1048576)
    && InInt32(adcH * 16384 - c.H4 * 1048576 - c.H5 * var1)
    && InInt32(adcH * 16384 - c.H4 * 1048576 - c.H5 * var1 + 16384)
    && InInt32(var2 * (var3 + 32768)) && InInt32(var4 * c.H2) && InInt32(var4 * c.H2 + 8192)
    && InInt32(prod) && InInt32(q * q) && InInt32(TruncDiv(q * q, 128) * c.H1)
    && InInt32(HumidityUnclamped(c, tFine, adcH))
  }

  /**
   * Four steps of getHumidity always fit int32_t: `adcH * 16384`,
   * `tFine - 76800`, and the products of that difference with H6 and with H3.
   * The product `var2 * (var3 + 32768)` of bmx_280.cpp:159, which also
   * depends only on tFine, H3 and H6, can overflow and is required by
   * `HumidityDefined`.
   */
  lemma HumidityFixedStepsFit(c: CompVals, tFine: int, adcH: uint16)
    requires Abs(tFine) <= TFINE_BOUND
    ensures 0 <= adcH * 16384 < 0x4000_0000
    ensures InInt32(tFine - 76800)
    ensures InInt32((tFine - 76800) * c.H6) && InInt32((tFine - 76800) * c.H3)
  {
    MulBound(tFine - 76800, c.H6, 0x20_0000, 0x80);
    MulBound(tFine - 76800, c.H3, 0x20_0000, 0x100);
  }

  /** Everything getHumidity computes fits its C++ type. */
  predicate HumidityReadDefined(c: CompVals, adcT: uint24, adcH: uint16) {
    TFineDefined(c, adcT) &&
    (TFine(c, adcT) != 0 && adcH != SKIPPED_16 ==> HumidityDefined(c, TFine(c, adcT), adcH))
  }

  /** bmx_280.cpp:164-166, the end of getHumidity: saturate to [0, 100 %RH] and scale to Q22.10. */
  function HumidityValue(v: int): (h: int)
    ensures 0 <= h <= 102400
    ensures v <= 0 ==> h == 0
    ensures v >= HUMIDITY_CEILING ==> h == 102400
    ensures 0 <= v <= HUMIDITY_CEILING ==> h * 4096 <= v < h * 4096 + 4096
  {
    var clamped := if v < 0 then 0 else if v > HUMIDITY_CEILING then HUMIDITY_CEILING else v;
    TruncDivBounds(clamped, 4096);
    TruncDiv(clamped, 4096)
  }

  /**
   * getHumidity in %RH as Q22.10: None exactly when tFine is 0 or the
   * humidity measurement was skipped; otherwise the value is saturated to
   * [0, 100 %RH] and, inside that range, is the unclamped value / 4096.
   */
  function GetHumidity(c: CompVals, adcT: uint24, adcH: uint16): (h: Option<int>)
    requires HumidityReadDefined(c, adcT, adcH)
    ensures h.None? <==> TFine(c, adcT) == 0 || adcH == SKIPPED_16
    ensures h.Some? ==> 0 <= h.value <= 102400
    ensures h.Some? ==>
      var v := HumidityUnclamped(c, TFine(c, adcT), adcH);
      && (v <= 0 ==> h.value == 0)
      && (v >= HUMIDITY_CEILING ==> h.value == 102400)
      && (0 <= v <= HUMIDITY_CEILING ==> h.value * 4096 <= v < h.value * 4096 + 4096)
  {
    var tFine := TFine(c, adcT);
    if tFine == 0 || adcH == SKIPPED_16 then None
    else
      Some(HumidityValue(HumidityUnclamped(c, tFine, adcH)))
  }

  // ---------------------------------------------------------------------
  // The public getters
  // ---------------------------------------------------------------------

  /** readTemperature: degrees Celsius. */
  function ReadTemperature(c: CompVals, adcT: uint24): (t: Option<real>)
    requires TFineDefined(c, adcT)
    ensures t.Some? <==> TFine(c, adcT) != 0
    ensures t.Some? ==> t.value * 100.0 == GetTemperature(c, adcT).value as real
    ensures t.Some? ==> -230.4 <= t.value <= 230.4
  {
    match GetTemperature(c, adcT)
    case None => None
    case Some(centi) => Some(centi as real / 100.0)
  }

  /** readPressure: hectopascal, the Q24.8 pascal value divided by 256 and by 100. */
  function ReadPressure(c: CompVals, adcT: uint24, adcP: uint24): (p: Option<real>)
    requires PressureReadDefined(c, adcT, adcP)
    ensures p.Some? <==> GetPressure(c, adcT, adcP).Some?
    ensures p.Some? ==> p.value * 25600.0 == GetPressure(c, adcT, adcP).value as real
  {
    match GetPressure(c, adcT, adcP)
    case None => None
    case Some(q) => Some(q as real / 256.0 / 100.0)
  }

  /** readHumidity: percent relative humidity, always within [0, 100]. */
  function ReadHumidity(c: CompVals, adcT: uint24, adcH: uint16): (h: Option<real>)
    requires HumidityReadDefined(c, adcT, adcH)
    ensures h.Some? <==> TFine(c, adcT) != 0 && adcH != SKIPPED_16
    ensures h.Some? ==> h.value * 1024.0 == GetHumidity(c, adcT, adcH).value as real
    ensures h.Some? ==> 0.0 <= h.value <= 100.0
  {
    match GetHumidity(c, adcT, adcH)
    case None => None
    case Some(q) => Some(q as real / 1024.0)
  }

  // ---------------------------------------------------------------------
  // Failure reporting
  // ---------------------------------------------------------------------

  /** A skipped temperature measurement makes all three readings unavailable. */
  lemma SkippedTemperatureDisablesAll(c: CompVals, adcP: uint24, adcH: uint16)
    ensures TFineDefined(c, SKIPPED_24) && TFine(c, SKIPPED_24) == 0
    ensures GetTemperature(c, SKIPPED_24) == None
    ensures GetPressure(c, SKIPPED_24, adcP) == None
    ensures GetHumidity(c, SKIPPED_24, adcH) == None
  {
  }

  /** Whenever tFine is 0, for whatever reason, all three readings are unavailable. */
  lemma ZeroTFineDisablesAll(c: CompVals, adcT: uint24, adcP: uint24, adcH: uint16)
    requires TFineDefined(c, adcT) && TFine(c, adcT) == 0
    ensures GetTemperature(c, adcT) == None
    ensures GetPressure(c, adcT, adcP) == None
    ensures GetHumidity(c, adcT, adcH) == None
  {
  }

  /**
   * A typical calibration: T1..P9 are the coefficients of the worked example
   * of the Bosch BMP280 datasheet, H1..H6 typical humidity coefficients.
   */
  const TYPICAL_COMP_VALS := CompVals(
    T1 := 27504, T2 := 26435, T3 := -1000,
    P1 := 36477, P2 := -10685, P3 := 3024, P4 := 2855, P5 := 140,
    P6 := -7, P7 := 15500, P8 := -14600, P9 := 6000,
    H1 := 75, H2 := 362, H3 := 0, H4 := 313, H5 := 50, H6 := 30)

  /**
   * tFine == 0 doubles as the failure signal, but it is also the value of a
   * real measurement: with the typical calibration, the reading 0x6B7000
   * (the sensor at the reference point of T1, about 0 degrees Celsius) is
   * not the skip value and still makes all three getters report failure.
   */
  lemma ValidReadingCanLookLikeFailure(adcP: uint24, adcH: uint16)
    ensures 0x6B_7000 != SKIPPED_24
    ensures TFineDefined(TYPICAL_COMP_VALS, 0x6B_7000)
    ensures TFine(TYPICAL_COMP_VALS, 0x6B_7000) == 0
    ensures GetTemperature(TYPICAL_COMP_VALS, 0x6B_7000) == None
    ensures GetPressure(TYPICAL_COMP_VALS, 0x6B_7000, adcP) == None
    ensures GetHumidity(TYPICAL_COMP_VALS, 0x6B_7000, adcH) == None
  {
    ReferenceReadingTFine();
    ZeroTFineDisablesAll(TYPICAL_COMP_VALS, 0x6B_7000, adcP, adcH);
  }

  /** The reading 0x6B7000 puts the typical calibration exactly at T1, where both terms vanish. */
  lemma ReferenceReadingTFine()
    ensures TFineDefined(TYPICAL_COMP_VALS, 0x6B_7000)
    ensures TFine(TYPICAL_COMP_VALS, 0x6B_7000) == 0
  {
    var c := TYPICAL_COMP_VALS;
    assert Pow2(4) == 16 by { Pow2Table(); }
    FloorDivUnique(0x6B_7000, 16, 440064);
    assert Shr(0x6B_7000, 4) == 440064;
    FloorDivUnique(440064, 8, 55008);
    FloorDivUnique(440064, 16, 27504);
    assert TruncDiv(440064, 8) == 55008;
    assert TruncDiv(440064, 16) == 27504;
    assert TempVar1(c, 440064) == 0;
    assert TempVar2(c, 440064) == 0;
  }

  /** The raw temperature and pressure of the worked example. */
  const EXAMPLE_ADC_T: uint24 := 0x7E_ED00
  const EXAMPLE_ADC_P: uint24 := 0x65_5AC0

  /**
   * The worked example, temperature: with the typical calibration the raw
   * temperature 0x7EED00 (519888 once shifted) gives tFine 128423 and
   * 25.08 degrees Celsius.
   */
  lemma WorkedExampleTemperature()
    ensures TFineDefined(TYPICAL_COMP_VALS, EXAMPLE_ADC_T)
    ensures TFine(TYPICAL_COMP_VALS, EXAMPLE_ADC_T) == 128423
    ensures GetTemperature(TYPICAL_COMP_VALS, EXAMPLE_ADC_T) == Some(2508)
  {
    var c := TYPICAL_COMP_VALS;
    assert Pow2(4) == 16 by { Pow2Table(); }
    FloorDivUnique(0x7E_ED00, 16, 519888);
    assert Shr(EXAMPLE_ADC_T, 4) == 519888;
    assert TruncDiv(519888, 8) == 64986;
    assert TruncDiv(519888, 16) == 32493;
    assert TruncDiv(263768430, 2048) == 128793;
    assert TempVar1(c, 519888) == 128793;
    assert TruncDiv(24890121, 4096) == 6076;
    assert TruncDiv(-6076000, 16384) == -370;
    assert TempVar2(c, 519888) == -370;
    assert TruncDiv(642243, 256) == 2508;
  }

  /** The worked example, the pressure polynomial's offset, scale and divisor at tFine 128423. */
  lemma WorkedExamplePressureTerms()
    ensures PressureOffset(TYPICAL_COMP_VALS, 128423) == 98104813871977
    ensures PressureScaled(TYPICAL_COMP_VALS, 128423) == -18510802882
    ensures PressureDivisor(TYPICAL_COMP_VALS, 128423) == 597560562
    ensures InInt64((Shl(1, 47) + PressureScaled(TYPICAL_COMP_VALS, 128423)) * TYPICAL_COMP_VALS.P1)
  {
    Pow2Table();
    assert Shl(59220, 17) == 7762083840;
    assert Shl(2855, 35) == 98097053040640;
    FloorDivUnique(541081296, 0x100, 2113598);
    assert Shr(541081296, 8) == 2113598;
    assert Shl(-4519755, 12) == -18512916480;
    assert Shl(1, 47) == 0x8000_0000_0000;
    FloorDivUnique(5133006144180572742, 0x2_0000_0000, 597560562);
  }

  /**
   * The worked example, pressure: with the typical calibration and the raw
   * readings 0x7EED00 and 0x655AC0, the pressure is 25767240 / 256 Pa,
   * that is 100653.28 Pa.
   */
  lemma WorkedExamplePressure()
    ensures PressureReadDefined(TYPICAL_COMP_VALS, EXAMPLE_ADC_T, EXAMPLE_ADC_P)
    ensures GetPressure(TYPICAL_COMP_VALS, EXAMPLE_ADC_T, EXAMPLE_ADC_P) == Some(25767240)
  {
    var c := TYPICAL_COMP_VALS;
    WorkedExampleTemperature();
    WorkedExamplePressureTerms();
    Pow2Table();
    FloorDivUnique(0x65_5AC0, 0x10, 415148);
    assert Shr(EXAMPLE_ADC_P, 4) == 415148;
    assert Shl(633428, 31) == 1360276272185344;
    assert TruncDiv(3944285807229271875, 597560562) == 6600646123;
    assert PressureQuotient(c, 128423, 415148) == 6600646123;
    FloorDivUnique(6600646123, 0x2000, 805742);
    FloorDivUnique(3895321023384000, 0x200_0000, 116089612);
    FloorDivUnique(-96369433395800, 0x8_0000, -183810108);
    FloorDivUnique(6532925627, 0x100, 25519240);
    assert CompensatePressure(c, 128423, 415148) == 25767240;
  }

  /** A skipped pressure measurement fails the pressure alone. */
  lemma SkippedPressureKeepsTemperature(c: CompVals, adcT: uint24)
    requires TFineDefined(c, adcT) && TFine(c, adcT) != 0
    ensures GetPressure(c, adcT, SKIPPED_24) == None
    ensures GetTemperature(c, adcT).Some?
  {
  }

  /** A skipped humidity measurement fails the humidity alone. */
  lemma SkippedHumidityKeepsTemperature(c: CompVals, adcT: uint24)
    requires TFineDefined(c, adcT) && TFine(c, adcT) != 0
    ensures GetHumidity(c, adcT, SKIPPED_16) == None
    ensures GetTemperature(c, adcT).Some?
  {
  }

  // ---------------------------------------------------------------------
  // The driver object
  // ---------------------------------------------------------------------

  /**
   * The driver: the sensor's bus address and the coefficients loaded from
   * it.  `regs` stands for the sensor's register file as the bus reads it.
   */
  class BMx280 {
    const deviceAddress: bv8
    var compVals: CompVals

    constructor (deviceAddress: bv8)
      ensures this.deviceAddress == deviceAddress
    {
      this.deviceAddress := deviceAddress;
      compVals := CompVals(0, 0, 0, 0, 0, 0, 0, 0, 0, 0, 0, 0, 0, 0, 0, 0, 0, 0);
    }

    /** populateTemperatureCompensationValues: loads T1..T3 and nothing else. */
    method PopulateTemperatureCompensationValues(regs: RegisterFile)
      modifies this
      ensures var d := DecodeCompVals(regs);
        compVals == old(compVals).(T1 := d.T1, T2 := d.T2, T3 := d.T3)
    {
      var w := ReadWordFromRegisterLE(Answer(regs, BME_REG_COMP_T1, 2));
      assert w == WordLEAt(regs, BME_REG_COMP_T1);
      compVals := compVals.(T1 := w as int);
      w := ReadWordFromRegisterLE(Answer(regs, BME_REG_COMP_T2, 2));
      assert w == WordLEAt(regs, BME_REG_COMP_T2);
      compVals := compVals.(T2 := AsInt16(w));
      w := ReadWordFromRegisterLE(Answer(regs, BME_REG_COMP_T3, 2));
      assert w == WordLEAt(regs, BME_REG_COMP_T3);
      compVals := compVals.(T3 := AsInt16(w));
    }

    /** populatePressureCompensationValues: loads P1..P9 and nothing else. */
    method PopulatePressureCompensationValues(regs: RegisterFile)
      modifies this
      ensures var d := DecodeCompVals(regs);
        compVals == old(compVals).(P1 := d.P1, P2 := d.P2, P3 := d.P3, P4 := d.P4,
          P5 := d.P5, P6 := d.P6, P7 := d.P7, P8 := d.P8, P9 := d.P9)
    {
      var w := ReadWordFromRegisterLE(Answer(regs, BME_REG_COMP_P1, 2));
      assert w == WordLEAt(regs, BME_REG_COMP_P1);
      compVals := compVals.(P1 := w as int);
      w := ReadWordFromRegisterLE(Answer(regs, BME_REG_COMP_P2, 2));
      assert w == WordLEAt(regs, BME_REG_COMP_P2);
      compVals := compVals.(P2 := AsInt16(w));
      w := ReadWordFromRegisterLE(Answer(regs, BME_REG_COMP_P3, 2));
      assert w == WordLEAt(regs, BME_REG_COMP_P3);
      compVals := compVals.(P3 := AsInt16(w));
      w := ReadWordFromRegisterLE(Answer(regs, BME_REG_COMP_P4, 2));
      assert w == WordLEAt(regs, BME_REG_COMP_P4);
      compVals := compVals.(P4 := AsInt16(w));
      w := ReadWordFromRegisterLE(Answer(regs, BME_REG_COMP_P5, 2));
      assert w == WordLEAt(regs, BME_REG_COMP_P5);
      compVals := compVals.(P5 := AsInt16(w));
      w := ReadWordFromRegisterLE(Answer(regs, BME_REG_COMP_P6, 2));
      assert w == WordLEAt(regs, BME_REG_COMP_P6);
      compVals := compVals.(P6 := AsInt16(w));
      w := ReadWordFromRegisterLE(Answer(regs, BME_REG_COMP_P7, 2));
      assert w == WordLEAt(regs, BME_REG_COMP_P7);
      compVals := compVals.(P7 := AsInt16(w));
      w := ReadWordFromRegisterLE(Answer(regs, BME_REG_COMP_P8, 2));
      assert w == WordLEAt(regs, BME_REG_COMP_P8);
      compVals := compVals.(P8 := AsInt16(w));
      w := ReadWordFromRegisterLE(Answer(regs, BME_REG_COMP_P9, 2));
      assert w == WordLEAt(regs, BME_REG_COMP_P9);
      compVals := compVals.(P9 := AsInt16(w));
    }

    /** populateHumidityCompensationValues: loads H1..H6 and nothing else. */
    method PopulateHumidityCompensationValues(regs: RegisterFile)
      modifies this
      ensures var d := DecodeCompVals(regs);
        compVals == old(compVals).(H1 := d.H1, H2 := d.H2, H3 := d.H3,
          H4 := d.H4, H5 := d.H5, H6 := d.H6)
    {
      var h1 := ReadByteFromRegister(Answer(regs, BME_REG_COMP_H1, 1));
      var h2 := ReadWordFromRegisterLE(Answer(regs, BME_REG_COMP_H2, 2));
      assert h2 == WordLEAt(regs, BME_REG_COMP_H2);
      var h3 := ReadByteFromRegister(Answer(regs, BME_REG_COMP_H3, 1));
      var h4Msb := ReadByteFromRegister(Answer(regs, BME_REG_COMP_H4, 1));
      var h4Lsb := ReadByteFromRegister(Answer(regs, BME_REG_COMP_H4 + 1, 1));
      var h5Msb := ReadByteFromRegister(Answer(regs, BME_REG_COMP_H5 + 1, 1));
      var h5Lsb := ReadByteFromRegister(Answer(regs, BME_REG_COMP_H5, 1));
      var h6 := ReadByteFromRegister(Answer(regs, BME_REG_COMP_H6, 1));
      compVals := compVals.(H1 := h1 as int, H2 := AsInt16(h2), H3 := h3 as int,
        H4 := Packed12(h4Msb, h4Lsb & 0x0F), H5 := Packed12(h5Msb, h5Lsb >> 4), H6 := AsInt8(h6));
    }

    /** setCompensationValues: every coefficient as the registers encode it. */
    method SetCompensationValues(regs: RegisterFile)
      modifies this
      ensures compVals == DecodeCompVals(regs)
    {
      PopulateTemperatureCompensationValues(regs);
      PopulatePressureCompensationValues(regs);
      PopulateHumidityCompensationValues(regs);
    }

    /**
     * init: soft reset, load the coefficients, configure oversampling and
     * normal mode, then check the chip identifier.  `idReceived` is what the
     * sensor answers to the identifier request; `writes` lists the register
     * writes in bus order.  Succeeds exactly when a byte came back and it is
     * the BME280 identifier.
     */
    method Init(regs: RegisterFile, idReceived: seq<bv8>) returns (ok: bool, writes: seq<RegWrite>)
      modifies this
      ensures compVals == DecodeCompVals(regs)
      ensures writes == [RegWrite(BME_REG_RESET, BME_VAL_RESET_SOFT),
                         RegWrite(BME_REG_CONTROLHUMID, HUMIDITY_OVERSAMPLING_X16),
                         RegWrite(BME_REG_CONFIG, CONFIG_NO_FILTER),
                         RegWrite(BME_REG_CONTROL, CONTROL_X16_NORMAL_MODE)]
      ensures ok <==> |idReceived| > 0 && idReceived[0] == BME280_CHIP_ID
    {
      writes := [RegWrite(BME_REG_RESET, BME_VAL_RESET_SOFT)];
      SetCompensationValues(regs);
      writes := writes + [RegWrite(BME_REG_CONTROLHUMID, HUMIDITY_OVERSAMPLING_X16)];
      writes := writes + [RegWrite(BME_REG_CONFIG, CONFIG_NO_FILTER)];
      writes := writes + [RegWrite(BME_REG_CONTROL, CONTROL_X16_NORMAL_MODE)];
      if |idReceived| > 0 {
        var id := idReceived[0];
        ok := id == BME280_CHIP_ID;
      } else {
        ok := false;
      }
    }
  }
}

=== FILE: fixed_width.dfy ===
/**
 * The C++ fixed-width integer behaviour the sensor code relies on, written out
 * over Dafny's unbounded integers: the ranges of the <stdint.h> types, the
 * reinterpretation of raw register bits as signed values, C++ `/` (which
 * truncates toward zero) and `>>`/`<<` on signed values (floor division and
 * multiplication by a power of two).
 */
module FixedWidth {

  type uint8 = x: int | 0 <= x < 0x100
  type int8 = x: int | -0x80 <= x < 0x80
  type uint16 = x: int | 0 <= x < 0x1_0000
  type int16 = x: int | -0x8000 <= x < 0x8000
  /** A value assembled from three register bytes. */
  type uint24 = x: int | 0 <= x < 0x100_0000

  /** `x` is representable as an `int32_t` (signed overflow is undefined in C++). */
  predicate InInt32(x: int) {
    -0x8000_0000 <= x < 0x8000_0000
  }

  /** `x` is representable as an `int64_t`. */
  predicate InInt64(x: int) {
    -0x8000_0000_0000_0000 <= x < 0x8000_0000_0000_0000
  }

  function Abs(x: int): nat {
    if x < 0 then -x else x
  }

  function Pow2(k: nat): (r: nat)
    ensures r > 0
  {
    if k == 0 then 1 else 2 * Pow2(k - 1)
  }

  /** The powers of two that the shifts of the compensation code use. */
  lemma Pow2Table()
    ensures Pow2(1) == 2 && Pow2(3) == 8 && Pow2(4) == 0x10 && Pow2(8) == 0x100
    ensures Pow2(11) == 0x800 && Pow2(12) == 0x1000 && Pow2(13) == 0x2000
    ensures Pow2(14) == 0x4000 && Pow2(17) == 0x2_0000 && Pow2(19) == 0x8_0000
    ensures Pow2(25) == 0x200_0000 && Pow2(31) == 0x8000_0000
    ensures Pow2(33) == 0x2_0000_0000 && Pow2(35) == 0x8_0000_0000
    ensures Pow2(47) == 0x8000_0000_0000
  {
    assert Pow2(10) == 0x400;
    assert Pow2(20) == 0x10_0000;
    assert Pow2(25) == 0x200_0000;
    assert Pow2(31) == 0x8000_0000;
    assert Pow2(35) == 0x8_0000_0000;
    assert Pow2(40) == 0x100_0000_0000;
  }

  /** Floor division by a positive divisor is determined by its defining bounds. */
  lemma FloorDivUnique(x: int, d: int, q: int)
    requires d > 0 && q * d <= x < q * d + d
    ensures x / d == q
  {
    var t := x / d - q;
    assert x == (x / d) * d + x % d;
    assert t * d == (x / d) * d - q * d;
  }

  lemma DivNonNegative(n: int, d: int)
    requires n >= 0 && d > 0
    ensures n / d >= 0
  {
  }

  /**
   * C++ `a / b` on signed integers: the quotient truncated toward zero, so its
   * magnitude is the floor of the magnitudes and its sign is that of a * b.
   */
  function TruncDiv(a: int, b: int): (q: int)
    requires b != 0
    ensures Abs(q) == Abs(a) / Abs(b)
    ensures (a >= 0) == (b > 0) ==> q >= 0
    ensures (a >= 0) != (b > 0) ==> q <= 0
  {
    var m := Abs(a) / Abs(b);
    DivNonNegative(Abs(a), Abs(b));
    if (a >= 0) == (b > 0) then m else -m
  }

  /**
   * C++ division by a positive divisor leaves a remainder smaller than the
   * divisor that takes the dividend's sign: the quotient is rounded down for
   * a non-negative dividend and up for a negative one.
   */
  lemma TruncDivBounds(a: int, b: int)
    requires b > 0
    ensures a >= 0 ==> TruncDiv(a, b) * b <= a < TruncDiv(a, b) * b + b
    ensures a < 0 ==> TruncDiv(a, b) * b - b < a <= TruncDiv(a, b) * b
  {
    if a < 0 {
      var m := (-a) / b;
      assert -a == m * b + (-a) % b;
      assert TruncDiv(a, b) == -m;
    }
  }

  /** A bound on a product from bounds on its factors. */
  lemma MulBound(a: int, b: int, boundA: int, boundB: int)
    requires Abs(a) <= boundA && Abs(b) <= boundB
    ensures Abs(a * b) <= boundA * boundB
  {
    assert Abs(a * b) == Abs(a) * Abs(b);
    assert Abs(a) * Abs(b) <= boundA * Abs(b);
  }

  /** `x >> k` on a signed value: an arithmetic shift, i.e. division rounded down. */
  function Shr(x: int, k: nat): (r: int)
    ensures r * Pow2(k) <= x < r * Pow2(k) + Pow2(k)
  {
    x / Pow2(k)
  }

  /**
   * `x << k` on a signed value that does not overflow: multiplication by 2^k,
   * the one value whose low k bits are zero and which `>> k` takes back to x.
   */
  function Shl(x: int, k: nat): (r: int)
    ensures r % Pow2(k) == 0
    ensures Shr(r, k) == x
  {
    FloorDivUnique(x * Pow2(k), Pow2(k), x);
    x * Pow2(k)
  }

  /**
   * Where C++ `/` by a power of two and `>>` agree: on non-negative dividends
   * and on exact multiples; on any other negative dividend the quotient is one
   * above the shifted value.
   */
  lemma TruncDivVersusShr(a: int, k: nat)
    ensures a >= 0 || a % Pow2(k) == 0 ==> TruncDiv(a, Pow2(k)) == Shr(a, k)
    ensures a < 0 && a % Pow2(k) != 0 ==> TruncDiv(a, Pow2(k)) == Shr(a, k) + 1
  {
    var d := Pow2(k);
    var q := a / d;
    if a >= 0 {
      assert TruncDiv(a, d) == a / d;
    } else {
      assert TruncDiv(a, d) == -((-a) / d);
      assert a == q * d + a % d;
      if a % d == 0 {
        FloorDivUnique(-a, d, -q);
      } else {
        FloorDivUnique(-a, d, -q - 1);
      }
    }
  }

  /** C++ `/` by 2^k is the arithmetic shift or one above it. */
  lemma TruncDivNearShr(a: int, k: nat)
    ensures a >= 0 ==> TruncDiv(a, Pow2(k)) == Shr(a, k)
    ensures Shr(a, k) <= TruncDiv(a, Pow2(k)) <= Shr(a, k) + 1
  {
    TruncDivVersusShr(a, k);
  }

  /** `(int8_t)b`: the raw byte read as a two's-complement value. */
  function AsInt8(b: bv8): int8 {
    var n := b as int;
    if n < 0x80 then n else n - 0x100
  }

  /** `(int16_t)w`: the raw 16-bit word read as a two's-complement value. */
  function AsInt16(w: bv16): int16 {
    var n := w as int;
    if n < 0x8000 then n else n - 0x1_0000
  }

  /** The signed reading of a byte is the one int8_t value congruent to it modulo 2^8. */
  lemma AsInt8Congruent(b: bv8)
    ensures AsInt8(b) % 0x100 == b as int
    ensures AsInt8(b) < 0 <==> b as int >= 0x80
  {
  }

  /** The signed reading of a word is the one int16_t value congruent to it modulo 2^16. */
  lemma AsInt16Congruent(w: bv16)
    ensures AsInt16(w) % 0x1_0000 == w as int
    ensures AsInt16(w) < 0 <==> w as int >= 0x8000
  {
  }

  /**
   * C++ integer promotion of an int8_t to a wider type, written on 16 bits:
   * the sign bit is copied into the upper byte.
   */
  function SignExtend8(b: bv8): bv16 {
    if b < 0x80 then b as bv16 else (b as bv16) | 0xFF00
  }

  lemma ExtendedByteBits(b: bv8)
    requires b >= 0x80
    ensures (b as bv16) | 0xFF00 == (b as bv16) + 0xFF00
  {
  }

  /** Sign extension keeps the signed value of the byte. */
  lemma SignExtendKeepsValue(b: bv8)
    ensures AsInt16(SignExtend8(b)) == AsInt8(b)
  {
    if b >= 0x80 {
      ExtendedByteBits(b);
      assert ((b as bv16) + 0xFF00) as int == b as int + 0xFF00;
    }
  }
}

=== FILE: i2c_utils.dfy ===
/**
 * The byte-level reads of i2c_utils.cpp: the loops that collect the bytes a
 * device sends back after a repeated-start read, and the expressions that
 * assemble those bytes into a value. The bus transaction itself is not
 * modelled: the bytes the device answers with are a parameter.
 */
module I2cUtils {

  /** One configuration write, `i2cWriteToRegister(device, reg, value)`. */
  datatype RegWrite = RegWrite(reg: bv8, value: bv8)

  /** The contents of a device's register file, one byte per 8-bit address. */
  type RegisterFile = s: seq<bv8> | |s| == 0x100 witness seq(0x100, _ => 0)

  /**
   * The bytes a device sends for an n-byte read that starts at register
   * `reg`: the register pointer advances by one per byte.
   */
  function Answer(regs: RegisterFile, reg: bv8, n: nat): (bytes: seq<bv8>)
    requires reg as int + n <= 0x100
    ensures |bytes| == n
    ensures forall i :: 0 <= i < n ==> bytes[i] == regs[reg as int + i]
  {
    regs[reg as int..reg as int + n]
  }

  /** `(buffer[0] << 8) | buffer[1]`: the first byte received is the high byte. */
  function WordBE(hi: bv8, lo: bv8): bv16 {
    ((hi as bv16) << 8) | (lo as bv16)
  }

  /** `(value >> 8) | (value << 8)` truncated to 16 bits: the two bytes exchanged. */
  function Swap16(v: bv16): bv16 {
    (v >> 8) | (v << 8)
  }

  /** `(buffer[0] << 16) | buffer[1] << 8 | buffer[2]`. */
  function ThreeBytes(b0: bv8, b1: bv8, b2: bv8): bv32 {
    ((b0 as bv32) << 16) | ((b1 as bv32) << 8) | (b2 as bv32)
  }

  lemma SmallWordAsInt(x: bv16, y: bv16)
    requires x < 0x100 && y < 0x100
    ensures (x * 0x100 + y) as int == x as int * 0x100 + y as int
  {
  }

  lemma ByteAboveWordAsInt(x: bv8, w: bv16)
    ensures (((x as bv32) << 16) | (w as bv32)) as int == x as int * 0x1_0000 + w as int
  {
  }

  lemma ThreeBytesSplit(b0: bv8, b1: bv8, b2: bv8)
    ensures ThreeBytes(b0, b1, b2) == ((b0 as bv32) << 16) | (WordBE(b1, b2) as bv32)
  {
  }

  /** The big-endian word is hi * 256 + lo, so it lies in [0, 65535]. */
  lemma WordBEValue(hi: bv8, lo: bv8)
    ensures WordBE(hi, lo) as int == hi as int * 0x100 + lo as int
  {
    assert WordBE(hi, lo) == (hi as bv16) * 0x100 + (lo as bv16);
    SmallWordAsInt(hi as bv16, lo as bv16);
  }

  /** Swapping the big-endian word gives the little-endian one: b1 * 256 + b0. */
  lemma WordLEValue(b0: bv8, b1: bv8)
    ensures Swap16(WordBE(b0, b1)) == WordBE(b1, b0)
    ensures Swap16(WordBE(b0, b1)) as int == b1 as int * 0x100 + b0 as int
  {
    WordBEValue(b1, b0);
  }

  /** Exchanging the bytes twice gives the word back. */
  lemma Swap16Involutive(v: bv16)
    ensures Swap16(Swap16(v)) == v
  {
  }

  /** The three-byte value is b0 * 65536 + b1 * 256 + b2, below 2^24, so never negative as an int32_t. */
  lemma ThreeBytesValue(b0: bv8, b1: bv8, b2: bv8)
    ensures ThreeBytes(b0, b1, b2) as int == b0 as int * 0x1_0000 + b1 as int * 0x100 + b2 as int
    ensures ThreeBytes(b0, b1, b2) as int < 0x100_0000
  {
    ThreeBytesSplit(b0, b1, b2);
    ByteAboveWordAsInt(b0, WordBE(b1, b2));
    WordBEValue(b1, b2);
  }

  /** The humidity "not ready" word 0x8000 comes from exactly one byte pair. */
  lemma HumiditySentinelBytes(hi: bv8, lo: bv8)
    ensures WordBE(hi, lo) == 0x8000 <==> hi == 0x80 && lo == 0x00
  {
  }

  /**
   * i2cReadByteFromRegister: every byte that arrives overwrites `value`, so
   * the result is the last byte received, or 0 when none arrives.
   */
  method ReadByteFromRegister(received: seq<bv8>) returns (value: bv8)
    ensures received == [] ==> value == 0
    ensures received != [] ==> value == received[|received| - 1]
  {
    value := 0;
    var i := 0;
    while i < |received|
      invariant 0 <= i <= |received|
      invariant value == if i == 0 then 0 else received[i - 1]
    {
      value := received[i];
      i := i + 1;
    }
  }

  /** i2cReadWordFromRegister: two bytes into a buffer, assembled big-endian. */
  method ReadWordFromRegister(received: seq<bv8>) returns (value: bv16)
    requires |received| == 2
    ensures value == WordBE(received[0], received[1])
  {
    var buffer := new bv8[2];
    var idx := 0;
    while idx < |received|
      invariant 0 <= idx <= 2
      invariant buffer[..idx] == received[..idx]
    {
      buffer[idx] := received[idx];
      idx := idx + 1;
    }
    assert buffer[..] == received;
    value := WordBE(buffer[0], buffer[1]);
  }

  /** i2cReadWordFromRegisterLE: the big-endian word with its bytes exchanged. */
  method ReadWordFromRegisterLE(received: seq<bv8>) returns (value: bv16)
    requires |received| == 2
    ensures value == Swap16(WordBE(received[0], received[1]))
    ensures value == WordBE(received[1], received[0])
  {
    var buffer := new bv8[2];
    var idx := 0;
    while idx < |received|
      invariant 0 <= idx <= 2
      invariant buffer[..idx] == received[..idx]
    {
      buffer[idx] := received[idx];
      idx := idx + 1;
    }
    assert buffer[..] == received;
    var word := WordBE(buffer[0], buffer[1]);
    value := Swap16(word);
    WordLEValue(buffer[0], buffer[1]);
  }

  /** i2cReadThreeBytesFromRegister: three bytes into a buffer, most significant first. */
  method ReadThreeBytesFromRegister(received: seq<bv8>) returns (value: bv32)
    requires |received| == 3
    ensures value == ThreeBytes(received[0], received[1], received[2])
  {
    var buffer := new bv8[3];
    var idx := 0;
    while idx < |received|
      invariant 0 <= idx <= 3
      invariant buffer[..idx] == received[..idx]
    {
      buffer[idx] := received[idx];
      idx := idx + 1;
    }
    assert buffer[..] == received;
    value := ThreeBytes(buffer[0], buffer[1], buffer[2]);
  }
}

=== FILE: mpu_x.dfy ===
/**
 * The MPU-6500 driver: the configuration it writes during bring-up, the
 * self-calibration that averages 100 samples at rest into per-axis offsets,
 * and the compensated, scaled accelerometer and gyroscope readings.
 *
 * The C++ code computes in `float`; here every value is a `real`, so sums
 * and quotients are exact.  The bus is abstracted: a register read returns
 * what a snapshot of the sensor's registers holds, and the configuration
 * bytes the sensor answers during calibration are parameters.
 */
module MpuX {
  import opened FixedWidth
  import opened I2cUtils

  // Register addresses
  const IMU_REG_GEN_CFG: bv8 := 0x1A
  const IMU_REG_GYRO_CFG: bv8 := 0x1B
  const IMU_REG_ACL1_CFG: bv8 := 0x1C
  const IMU_REG_ACL2_CFG: bv8 := 0x1D
  const IMU_REG_PWR_MGMT_1: bv8 := 0x6B
  const IMU_REG_WHO_AM_I: bv8 := 0x75
  const IMU_REG_SMP_RAT_CFG: bv8 := 0x19
  const IMU_REG_INT_BYP_CFG: bv8 := 0x37
  const IMU_REG_ACCL_VALS_X: bv8 := 0x3B
  const IMU_REG_ACCL_VALS_Y: bv8 := 0x3D
  const IMU_REG_ACCL_VALS_Z: bv8 := 0x3F
  const IMU_REG_GYRO_VALS_X: bv8 := 0x43
  const IMU_REG_GYRO_VALS_Y: bv8 := 0x45
  const IMU_REG_GYRO_VALS_Z: bv8 := 0x47

  const IMU_VAL_PWR_MGMT_1_RESET: bv8 := 0x80
  const IMU_VAL_REG_INT_BYP_CFG_BYP_EN: bv8 := 0x02

  /** The SLEEP bit of PWR_MGMT_1, which init clears. */
  const PWR_MGMT_1_SLEEP: bv8 := 0x40
  /** The sample rate divider init programs. */
  const SAMPLE_RATE_DIVIDER: bv8 := 0x05

  /** The full-scale selections calibration writes into bits 3-4: ±2 g and ±250 °/s. */
  const ACCL_FS_SEL_2G: bv8 := 0 << 3
  const GYRO_FS_SEL_250DPS: bv8 := 0 << 3

  /** The number of samples self-calibration averages. */
  const CALIBRATION_SAMPLES := 100
  /** Accelerometer counts per g in the ±2 g range calibration selects. */
  const ACCL_LSB_PER_G := 16384.0
  /** Gyroscope full scale in degrees per second for the ±250 °/s range. */
  const GYRO_FULL_SCALE := 250.0

  /** floatThreeVals: one reading or offset per axis. */
  datatype ThreeVals = ThreeVals(x: real, y: real, z: real)

  const ZERO := ThreeVals(0.0, 0.0, 0.0)

  function Add(a: ThreeVals, b: ThreeVals): ThreeVals {
    ThreeVals(a.x + b.x, a.y + b.y, a.z + b.z)
  }

  function Sub(a: ThreeVals, b: ThreeVals): ThreeVals {
    ThreeVals(a.x - b.x, a.y - b.y, a.z - b.z)
  }

  function Scale(a: ThreeVals, k: real): ThreeVals {
    ThreeVals(a.x * k, a.y * k, a.z * k)
  }

  // ---------------------------------------------------------------------
  // Configuration bytes
  // ---------------------------------------------------------------------

  /** `before` and `after` agree on the bits of `mask`. */
  predicate Keeps(before: bv8, after: bv8, mask: bv8) {
    before & mask == after & mask
  }

  /** The PWR_MGMT_1 value init writes back: the read value with SLEEP cleared. */
  function WakeValue(currPwrMgmt: bv8): bv8 {
    currPwrMgmt & !PWR_MGMT_1_SLEEP
  }

  /** The PWR_MGMT_1 write clears bit 6 and changes no other bit. */
  lemma WakeValueClearsOnlySleep(currPwrMgmt: bv8)
    ensures WakeValue(currPwrMgmt) & 0x40 == 0
    ensures Keeps(currPwrMgmt, WakeValue(currPwrMgmt), 0xBF)
  {
  }

  /** What the six configuration reads of selfCalibrate return, in order. */
  datatype ConfigReads = ConfigReads(
    gyroCfg: bv8,       // GYRO_CONFIG, first read
    genCfg: bv8,        // CONFIG
    acl1Cfg: bv8,       // ACCEL_CONFIG
    gyroCfgAgain: bv8,  // GYRO_CONFIG, second read
    acl2Cfg: bv8,       // ACCEL_CONFIG_2, first read
    acl2CfgAgain: bv8)  // ACCEL_CONFIG_2, second read (its value is not used)

  /** The register writes of selfCalibrate, in bus order. */
  function CalibrationConfigWrites(r: ConfigReads): seq<RegWrite> {
    [ RegWrite(IMU_REG_GYRO_CFG, r.gyroCfg & 0xFC),
      RegWrite(IMU_REG_GEN_CFG, (r.genCfg & 0xF8) | 0x06),
      RegWrite(IMU_REG_ACL1_CFG, (r.acl1Cfg & 0xE7) | ACCL_FS_SEL_2G),
      RegWrite(IMU_REG_GYRO_CFG, (r.gyroCfgAgain & 0xE7) | GYRO_FS_SEL_250DPS),
      RegWrite(IMU_REG_ACL2_CFG, r.acl2Cfg & !8),
      RegWrite(IMU_REG_ACL2_CFG, (r.acl1Cfg & 0xF8) | 0x06) ]
  }

  /**
   * The bit fields the calibration writes change: the gyroscope filter bypass
   * bits 0-1 cleared, the low-pass setting of CONFIG set to 0b110, the
   * accelerometer and gyroscope full-scale bits 3-4 cleared (±2 g and
   * ±250 °/s), bit 3 of ACCEL_CONFIG_2 cleared; every other bit of each
   * register keeps the value that was read.
   */
  lemma CalibrationWriteFields(r: ConfigReads)
    ensures var w := CalibrationConfigWrites(r);
      && |w| == 6
      && w[0].value & 0x03 == 0 && Keeps(r.gyroCfg, w[0].value, 0xFC)
      && w[1].value & 0x07 == 0x06 && Keeps(r.genCfg, w[1].value, 0xF8)
      && w[2].value & 0x18 == 0 && Keeps(r.acl1Cfg, w[2].value, 0xE7)
      && w[3].value & 0x18 == 0 && Keeps(r.gyroCfgAgain, w[3].value, 0xE7)
      && w[4].value & 0x08 == 0 && Keeps(r.acl2Cfg, w[4].value, 0xF7)
  {
  }

  /**
   * The last ACCEL_CONFIG_2 write is built from the ACCEL_CONFIG value, not
   * from the ACCEL_CONFIG_2 value re-read just before it: whatever ACCEL_CONFIG_2
   * reads return, the register ends with ACCEL_CONFIG's upper five bits and
   * 0b110 below them.
   */
  lemma FinalAccelConfig2FromAccelConfig(r: ConfigReads, acl2Cfg: bv8, acl2CfgAgain: bv8)
    ensures var w := CalibrationConfigWrites(r);
      var w' := CalibrationConfigWrites(r.(acl2Cfg := acl2Cfg, acl2CfgAgain := acl2CfgAgain));
      && w[5] == w'[5]
      && w[5].reg == IMU_REG_ACL2_CFG
      && w[5].value & 0x07 == 0x06 && Keeps(r.acl1Cfg, w[5].value, 0xF8)
  {
  }

  /**
   * Consequence of the above: when ACCEL_CONFIG had the ±4 g range selected
   * (0x08) before calibration, ACCEL_CONFIG_2 ends as 0x0E with bit 3 set
   * again, the bit the previous write had just cleared.
   */
  lemma FinalAccelConfig2Example(r: ConfigReads)
    requires r.acl1Cfg == 0x08
    ensures CalibrationConfigWrites(r)[4].value & 0x08 == 0
    ensures CalibrationConfigWrites(r)[5].value == 0x0E
    ensures CalibrationConfigWrites(r)[5].value & 0x08 == 0x08
  {
  }

  /** The reset and bypass values are single bits: bit 7 and bit 1. */
  lemma ResetAndBypassBits()
    ensures IMU_VAL_PWR_MGMT_1_RESET == 1 << 7
    ensures IMU_VAL_REG_INT_BYP_CFG_BYP_EN == 1 << 1
  {
  }

  /** One 16-bit word per axis: the axis registers are distinct and two apart. */
  lemma AxisRegistersSpaced()
    ensures IMU_REG_ACCL_VALS_Y == IMU_REG_ACCL_VALS_X + 2
    ensures IMU_REG_ACCL_VALS_Z == IMU_REG_ACCL_VALS_Y + 2
    ensures IMU_REG_GYRO_VALS_Y == IMU_REG_GYRO_VALS_X + 2
    ensures IMU_REG_GYRO_VALS_Z == IMU_REG_GYRO_VALS_Y + 2
    ensures IMU_REG_ACCL_VALS_Z + 2 <= IMU_REG_GYRO_VALS_X
  {
  }

  // ---------------------------------------------------------------------
  // Readings
  // ---------------------------------------------------------------------

  /** One axis: the big-endian word at `reg`, read as int16_t. */
  function AxisAt(regs: RegisterFile, reg: bv8): int16
    requires reg < 0xFF
  {
    AsInt16(WordBE(regs[reg], regs[reg + 1]))
  }

  /** An axis is the signed big-endian word of its two registers. */
  lemma AxisValue(regs: RegisterFile, reg: bv8)
    requires reg < 0xFF
    ensures AxisAt(regs, reg) % 0x1_0000 == regs[reg] as int * 0x100 + regs[reg + 1] as int
    ensures -0x8000 <= AxisAt(regs, reg) < 0x8000
  {
    WordBEValue(regs[reg], regs[reg + 1]);
    AsInt16Congruent(WordBE(regs[reg], regs[reg + 1]));
  }

  /** getThreeValsRaw: the three axes starting at the given registers. */
  function ThreeValsRaw(regs: RegisterFile, xAddr: bv8, yAddr: bv8, zAddr: bv8): ThreeVals
    requires xAddr < 0xFF && yAddr < 0xFF && zAddr < 0xFF
  {
    ThreeVals(AxisAt(regs, xAddr) as real, AxisAt(regs, yAddr) as real, AxisAt(regs, zAddr) as real)
  }

  /** getThreeValsComp: the raw axes minus the offset; adding it back gives the raw axes. */
  function ThreeValsComp(regs: RegisterFile, xAddr: bv8, yAddr: bv8, zAddr: bv8, offset: ThreeVals): (v: ThreeVals)
    requires xAddr < 0xFF && yAddr < 0xFF && zAddr < 0xFF
    ensures Add(v, offset) == ThreeValsRaw(regs, xAddr, yAddr, zAddr)
    ensures offset == ZERO ==> v == ThreeValsRaw(regs, xAddr, yAddr, zAddr)
  {
    var adc := ThreeValsRaw(regs, xAddr, yAddr, zAddr);
    ThreeVals(adc.x - offset.x, adc.y - offset.y, adc.z - offset.z)
  }

  /** The raw accelerometer axes of a register snapshot. */
  function AcclReading(regs: RegisterFile): ThreeVals {
    ThreeValsRaw(regs, IMU_REG_ACCL_VALS_X, IMU_REG_ACCL_VALS_Y, IMU_REG_ACCL_VALS_Z)
  }

  /** The raw gyroscope axes of a register snapshot. */
  function GyroReading(regs: RegisterFile): ThreeVals {
    ThreeValsRaw(regs, IMU_REG_GYRO_VALS_X, IMU_REG_GYRO_VALS_Y, IMU_REG_GYRO_VALS_Z)
  }

  /** The conversion of getAcclVals: counts to g. */
  function AcclScale(comp: ThreeVals): (g: ThreeVals)
    ensures Scale(g, ACCL_LSB_PER_G) == comp
  {
    ThreeVals(comp.x / ACCL_LSB_PER_G, comp.y / ACCL_LSB_PER_G, comp.z / ACCL_LSB_PER_G)
  }

  /** The conversion of getGyroVals: counts to degrees per second. */
  function GyroScale(comp: ThreeVals): (dps: ThreeVals)
    ensures Scale(dps, 16384.0 / GYRO_FULL_SCALE) == comp
  {
    ThreeVals(comp.x * GYRO_FULL_SCALE / 16384.0, comp.y * GYRO_FULL_SCALE / 16384.0,
              comp.z * GYRO_FULL_SCALE / 16384.0)
  }

  // ---------------------------------------------------------------------
  // Calibration arithmetic
  // ---------------------------------------------------------------------

  /** The per-axis sum of a sequence of readings. */
  function SampleSum(s: seq<ThreeVals>): ThreeVals {
    if |s| == 0 then ZERO else Add(SampleSum(s[..|s| - 1]), s[|s| - 1])
  }

  function AcclReadings(samples: seq<RegisterFile>): (r: seq<ThreeVals>)
    ensures |r| == |samples|
    ensures forall i :: 0 <= i < |samples| ==> r[i] == AcclReading(samples[i])
  {
    seq(|samples|, i requires 0 <= i < |samples| => AcclReading(samples[i]))
  }

  function GyroReadings(samples: seq<RegisterFile>): (r: seq<ThreeVals>)
    ensures |r| == |samples|
    ensures forall i :: 0 <= i < |samples| ==> r[i] == GyroReading(samples[i])
  {
    seq(|samples|, i requires 0 <= i < |samples| => GyroReading(samples[i]))
  }

  /** The mean over the calibration run. */
  function CalibrationMean(s: seq<ThreeVals>): ThreeVals {
    Scale(SampleSum(s), 1.0 / CALIBRATION_SAMPLES as real)
  }

  /** The accelerometer offset: the mean, less 1 g on the z axis. */
  function AcclOffsetFrom(samples: seq<RegisterFile>): ThreeVals {
    var sum := SampleSum(AcclReadings(samples));
    ThreeVals(sum.x / 100.0, sum.y / 100.0, sum.z / 100.0 - ACCL_LSB_PER_G)
  }

  /** The gyroscope offset: the mean. */
  function GyroOffsetFrom(samples: seq<RegisterFile>): ThreeVals {
    var sum := SampleSum(GyroReadings(samples));
    ThreeVals(sum.x / 100.0, sum.y / 100.0, sum.z / 100.0)
  }

  /** The readings with an offset subtracted from each. */
  function Compensated(s: seq<ThreeVals>, offset: ThreeVals): (r: seq<ThreeVals>)
    ensures |r| == |s|
    ensures forall i :: 0 <= i < |s| ==> r[i] == Sub(s[i], offset)
  {
    seq(|s|, i requires 0 <= i < |s| => Sub(s[i], offset))
  }

  /** Summing n copies of one reading gives n times that reading. */
  lemma {:induction false} SumOfConstant(s: seq<ThreeVals>, v: ThreeVals)
    requires forall i :: 0 <= i < |s| ==> s[i] == v
    ensures SampleSum(s) == Scale(v, |s| as real)
  {
    if |s| > 0 {
      SumOfConstant(s[..|s| - 1], v);
      ScaleStep(v, (|s| - 1) as real);
    }
  }

  /** Subtracting an offset from each of n readings subtracts n offsets from their sum. */
  lemma {:induction false} SumOfCompensated(s: seq<ThreeVals>, offset: ThreeVals)
    ensures SampleSum(Compensated(s, offset)) == Sub(SampleSum(s), Scale(offset, |s| as real))
  {
    if |s| > 0 {
      var n := |s|;
      var c := Compensated(s, offset);
      assert c[..n - 1] == Compensated(s[..n - 1], offset);
      SumOfCompensated(s[..n - 1], offset);
      ScaleStep(offset, (n - 1) as real);
      assert SampleSum(c) == Add(SampleSum(c[..n - 1]), Sub(s[n - 1], offset));
    }
  }

  /** One more copy: (k + 1) * v == k * v + v, per axis. */
  lemma ScaleStep(v: ThreeVals, k: real)
    ensures Scale(v, k + 1.0) == Add(Scale(v, k), v)
  {
    assert v.x * (k + 1.0) == v.x * k + v.x;
    assert v.y * (k + 1.0) == v.y * k + v.y;
    assert v.z * (k + 1.0) == v.z * k + v.z;
  }

  /**
   * With a steady sensor (every sample the same), the offsets are that
   * sample, less 1 g on the accelerometer z axis; a sensor lying flat and
   * still (0, 0, 1 g and no rotation) gets zero offsets.
   */
  lemma SteadySensorOffsets(samples: seq<RegisterFile>, accl: ThreeVals, gyro: ThreeVals)
    requires |samples| == CALIBRATION_SAMPLES
    requires forall i :: 0 <= i < |samples| ==> AcclReading(samples[i]) == accl
    requires forall i :: 0 <= i < |samples| ==> GyroReading(samples[i]) == gyro
    ensures AcclOffsetFrom(samples) == ThreeVals(accl.x, accl.y, accl.z - ACCL_LSB_PER_G)
    ensures GyroOffsetFrom(samples) == gyro
    ensures accl == ThreeVals(0.0, 0.0, ACCL_LSB_PER_G) && gyro == ZERO ==>
      AcclOffsetFrom(samples) == ZERO && GyroOffsetFrom(samples) == ZERO
  {
    SumOfConstant(AcclReadings(samples), accl);
    SumOfConstant(GyroReadings(samples), gyro);
  }

  /**
   * Compensated with the offset they produced, the calibration samples of
   * the gyroscope average to zero rotation.
   */
  lemma GyroCalibrationSamplesCompensate(samples: seq<RegisterFile>)
    requires |samples| == CALIBRATION_SAMPLES
    ensures CalibrationMean(Compensated(GyroReadings(samples), GyroOffsetFrom(samples))) == ZERO
  {
    SumOfCompensated(GyroReadings(samples), GyroOffsetFrom(samples));
  }

  /**
   * Compensated with the offset they produced, the calibration samples of
   * the accelerometer average to exactly 1 g along z and none along x and y.
   */
  lemma AcclCalibrationSamplesCompensate(samples: seq<RegisterFile>)
    requires |samples| == CALIBRATION_SAMPLES
    ensures AcclScale(CalibrationMean(Compensated(AcclReadings(samples), AcclOffsetFrom(samples))))
      == ThreeVals(0.0, 0.0, 1.0)
  {
    SumOfCompensated(AcclReadings(samples), AcclOffsetFrom(samples));
  }

  /** Appending one reading adds it to the sum. */
  lemma SumAppend(s: seq<ThreeVals>, v: ThreeVals)
    ensures SampleSum(s + [v]) == Add(SampleSum(s), v)
  {
    assert (s + [v])[..|s|] == s;
  }

  /** One more calibration sample adds its readings to the running sums. */
  lemma SumsStep(samples: seq<RegisterFile>, i: nat)
    requires i < |samples|
    ensures SampleSum(AcclReadings(samples[..i + 1]))
      == Add(SampleSum(AcclReadings(samples[..i])), AcclReading(samples[i]))
    ensures SampleSum(GyroReadings(samples[..i + 1]))
      == Add(SampleSum(GyroReadings(samples[..i])), GyroReading(samples[i]))
  {
    assert AcclReadings(samples[..i + 1]) == AcclReadings(samples[..i]) + [AcclReading(samples[i])];
    assert GyroReadings(samples[..i + 1]) == GyroReadings(samples[..i]) + [GyroReading(samples[i])];
    SumAppend(AcclReadings(samples[..i]), AcclReading(samples[i]));
    SumAppend(GyroReadings(samples[..i]), GyroReading(samples[i]));
  }

  // ---------------------------------------------------------------------
  // The driver object
  // ---------------------------------------------------------------------

  /** The driver: the sensor's bus address and the two calibration offsets. */
  class MPUx {
    const deviceAddress: bv8
    var acclOffset: ThreeVals
    var gyroOffset: ThreeVals

    /** Both offsets start at zero. */
    constructor (deviceAddress: bv8)
      ensures this.deviceAddress == deviceAddress
      ensures acclOffset == ZERO && gyroOffset == ZERO
    {
      this.deviceAddress := deviceAddress;
      acclOffset := ZERO;
      gyroOffset := ZERO;
    }

    /**
     * selfCalibrate: the configuration writes, then the sums of 100
     * accelerometer and gyroscope samples (`samples[i]` is the sensor as the
     * i-th iteration reads it) turned into the two offsets.
     */
    method SelfCalibrate(config: ConfigReads, samples: seq<RegisterFile>) returns (writes: seq<RegWrite>)
      requires |samples| == CALIBRATION_SAMPLES
      modifies this
      ensures writes == CalibrationConfigWrites(config)
      ensures acclOffset == AcclOffsetFrom(samples)
      ensures gyroOffset == GyroOffsetFrom(samples)
    {
      writes := CalibrationConfigWrites(config);

      var initialOffsetAccl := ZERO;
      var initialOffsetGyro := ZERO;
      var i := 0;
      while i < CALIBRATION_SAMPLES
        invariant 0 <= i <= CALIBRATION_SAMPLES
        invariant initialOffsetAccl == SampleSum(AcclReadings(samples[..i]))
        invariant initialOffsetGyro == SampleSum(GyroReadings(samples[..i]))
      {
        var acclCurr := AcclReading(samples[i]);
        var gyroCurr := GyroReading(samples[i]);

        SumsStep(samples, i);

        initialOffsetAccl := Add(initialOffsetAccl, acclCurr);

        initialOffsetGyro := Add(initialOffsetGyro, gyroCurr);
        i := i + 1;
      }
      assert samples[..i] == samples;

      acclOffset := ThreeVals(initialOffsetAccl.x / 100.0, initialOffsetAccl.y / 100.0,
                              initialOffsetAccl.z / 100.0 - 16384.0);
      gyroOffset := ThreeVals(initialOffsetGyro.x / 100.0, initialOffsetGyro.y / 100.0,
                              initialOffsetGyro.z / 100.0);
    }

    /**
     * init: soft reset, bypass mode, wake-up (SLEEP cleared in the value
     * `currPwrMgmt` read back), self-calibration, sample rate divider 5.
     * The offsets are written here and nowhere else.
     */
    method Init(currPwrMgmt: bv8, config: ConfigReads, samples: seq<RegisterFile>)
      returns (writes: seq<RegWrite>)
      requires |samples| == CALIBRATION_SAMPLES
      modifies this
      ensures writes ==
        [ RegWrite(IMU_REG_PWR_MGMT_1, IMU_VAL_PWR_MGMT_1_RESET),
          RegWrite(IMU_REG_INT_BYP_CFG, IMU_VAL_REG_INT_BYP_CFG_BYP_EN),
          RegWrite(IMU_REG_PWR_MGMT_1, WakeValue(currPwrMgmt)) ]
        + CalibrationConfigWrites(config)
        + [ RegWrite(IMU_REG_SMP_RAT_CFG, SAMPLE_RATE_DIVIDER) ]
      ensures acclOffset == AcclOffsetFrom(samples)
      ensures gyroOffset == GyroOffsetFrom(samples)
    {
      writes := [RegWrite(IMU_REG_PWR_MGMT_1, IMU_VAL_PWR_MGMT_1_RESET)];
      writes := writes + [RegWrite(IMU_REG_INT_BYP_CFG, IMU_VAL_REG_INT_BYP_CFG_BYP_EN)];
      var newPwrMgmt := currPwrMgmt & !0x40;
      writes := writes + [RegWrite(IMU_REG_PWR_MGMT_1, newPwrMgmt)];
      var calibrationWrites := SelfCalibrate(config, samples);
      writes := writes + calibrationWrites;
      writes := writes + [RegWrite(IMU_REG_SMP_RAT_CFG, SAMPLE_RATE_DIVIDER)];
    }

    /** getAcclVals: the compensated accelerometer axes in g. */
    function GetAcclVals(regs: RegisterFile): (g: ThreeVals)
      reads this
      ensures Add(Scale(g, ACCL_LSB_PER_G), acclOffset) == AcclReading(regs)
    {
      AcclScale(ThreeValsComp(regs, IMU_REG_ACCL_VALS_X, IMU_REG_ACCL_VALS_Y, IMU_REG_ACCL_VALS_Z, acclOffset))
    }

    /** getGyroVals: the compensated gyroscope axes in degrees per second. */
    function GetGyroVals(regs: RegisterFile): (dps: ThreeVals)
      reads this
      ensures Add(Scale(dps, 16384.0 / GYRO_FULL_SCALE), gyroOffset) == GyroReading(regs)
    {
      GyroScale(ThreeValsComp(regs, IMU_REG_GYRO_VALS_X, IMU_REG_GYRO_VALS_Y, IMU_REG_GYRO_VALS_Z, gyroOffset))
    }
  }

  /**
   * A reading equal to the offset compensates to zero, and an accelerometer
   * reading one g (16384 counts) above the offset on z reads exactly 1.0 g.
   */
  lemma ReadingAtOffset(regs: RegisterFile, acclOffset: ThreeVals, gyroOffset: ThreeVals)
    ensures AcclReading(regs) == Add(acclOffset, ThreeVals(0.0, 0.0, ACCL_LSB_PER_G)) ==>
      AcclScale(ThreeValsComp(regs, IMU_REG_ACCL_VALS_X, IMU_REG_ACCL_VALS_Y, IMU_REG_ACCL_VALS_Z, acclOffset))
        == ThreeVals(0.0, 0.0, 1.0)
    ensures GyroReading(regs) == gyroOffset ==>
      GyroScale(ThreeValsComp(regs, IMU_REG_GYRO_VALS_X, IMU_REG_GYRO_VALS_Y, IMU_REG_GYRO_VALS_Z, gyroOffset))
        == ZERO
  {
  }
}

=== FILE: wrappers.dfy ===
/** The present/absent result the compensators report instead of a NaN. */
module Wrappers {

  datatype Option<+T> = None | Some(value: T)
}
